=== FILE: README.md ===
# Business legitimacy scoring, modelled in Dafny

This project models the scoring engine of a business-legitimacy checker. The
engine takes a place record that has already been fetched (name, address,
phone, website, opening hours, rating, review count, business status, map
location, emirate validation) and the company name that was searched for.
From these it computes eight factor scores in [0, 1]:

- name similarity;
- website similarity;
- contact, location and operational completeness;
- review score;
- profile completeness;
- emirate confidence.

It de-rates a fixed base weight per factor with a triangular membership
function, halves the weights when a "similarity" or "completeness" factor is
below 0.7, and renormalises them. The score is the weighted sum, cut to 70%
when any factor is below 0.7. It is reported in percent together with a
level: High, Moderate, Low or Very Low.

The model has eight modules, one file each:

- `Text` (`text.dfy`) holds the Python string primitives the code uses, on
  ASCII: `lower`, `strip`, `split()`, `split(sep)`, `join`, `startswith` and
  `endswith`.
- `FuzzyConfig` (`fuzzy_config.dfy`) holds the membership triangles, the base
  weights, the mismatch constants and the level thresholds. It also defines
  the factor type and the sum of a weight table.
- `WeightsConfig` (`weights_config.dfy`) holds the second weight table, its
  percent form, the second copy of the thresholds and the required profile
  fields.
- `Normalizer` (`normalizer.dfy`) is `normalize_name`, with its abbreviation
  and suffix tables.
- `Similarity` (`similarity.dfy`) holds the name, domain and e-mail
  similarity blends. The string-matching libraries they call are opaque
  functions bundled in a `Library` value. `Library.Valid` states the only
  things the model assumes about them:
  - a sequence ratio lies in [0, 1], and is 1 for equal strings;
  - the fuzzy ratios are whole numbers in [0, 100].
- `FuzzyLogic` (`fuzzy_logic.dfy`) holds the membership function, the weight
  calculation and the aggregation.
- `Legitimacy` (`legitimacy.dfy`) is the factor extractor and the report of
  `calculate_business_legitimacy`.
- `RealArith` (`real_arith.dfy`) holds small facts about products and
  quotients of reals that the proofs use.

All arithmetic is exact over `real`: where Python would use a float, the
exact mathematical value is used.

## Model

| member | source | states |
|---|---|---|
| Text.Lower | main.py:50 | `lower()` keeps the length and maps each character to its lower-case form (ASCII) |
| Text.Strip | main.py:50 | `strip()` returns a contiguous slice of the input with no whitespace at either end |
| Text.SplitOn | main.py:94 | `split('.')` (also used with '@') gives one more piece than there are separators; no piece holds the separator; joining the pieces with it restores the input |
| Text.Words | main.py:57 | `split()` yields non-empty runs of non-whitespace characters of the input, and yields nothing exactly when the input is all whitespace |
| Text.WordsSplitAt | main.py:57 | any whitespace character cuts the words: the words of a + [c] + b are those of a followed by those of b |
| Text.WordsOfWord | main.py:57 | a non-empty string without whitespace splits into itself |
| Text.WordsOfStripLeft | main.py:57 | leading whitespace adds no word |
| Text.SplitJoinRoundTrip | main.py:57-66 | splitting a space-joined list of words gives the list back |
| Text.StripKeepsOccurrences | main.py:163-164 | `strip()` never removes a non-whitespace character such as '@' |
| Text.LowerKeepsOccurrences | main.py:163-164 | `lower()` keeps the number of '@' (and any other non-letter) characters |
| FuzzyConfig.Sum | utils/fuzzy_logic.py:62 | the total of a table of non-negative weights is non-negative, and 0 exactly when every weight is 0 |
| FuzzyConfig.SumMonotone | utils/fuzzy_logic.py:62 | a table that is entry-wise no larger has no larger total |
| FuzzyConfig.FactorsListsEveryFactorOnce | config/fuzzy_config.py:50-59 | the eight factors are listed once each |
| FuzzyConfig.TablesHaveSameKeys | config/fuzzy_config.py:6-59 | the membership table and the base-weight table have the same eight keys |
| FuzzyConfig.MembershipParamsWellFormed | config/fuzzy_config.py:6-47 | every triangle is (0, 0.9, 1.0), so a < b < c |
| FuzzyConfig.BaseWeightsTotal | config/fuzzy_config.py:50-59 | every base weight is positive; together they make 1.05, not 1 |
| FuzzyConfig.ThresholdsOrdered | config/fuzzy_config.py:62-74 | the level cut-offs are strictly decreasing (0.8 > 0.6 > 0.4 > 0); the mismatch threshold is 0.7; both reductions lie in (0, 1) |
| WeightsConfig.LegitimacyWeightsAreBaseWeights | config/weights.py:6-15 | the legitimacy weights equal the base weights key for key, so they also total 1.05 |
| WeightsConfig.DisplayWeightsArePercentages | config/weights.py:18-27 | each display weight is 100 times its legitimacy weight; together they make 105 |
| WeightsConfig.ThresholdTablesAgree | config/weights.py:30-35 | both copies of the level thresholds are equal |
| WeightsConfig.RequiredFieldsDistinct | config/weights.py:45-53 | there are seven required fields, no two alike |
| Normalizer.ScrubPunctuation | main.py:51 | keeps every word and whitespace character in place and turns every other character into a space |
| Normalizer.CollapseSpaces | main.py:54 | every character of the result is a space or a non-whitespace character of the input; no two spaces are adjacent; the result starts with a space exactly when the input starts with whitespace, and is empty only for the empty input |
| Normalizer.CollapseKeepsWords | main.py:54-57 | `split()` gives the same words, in the same order, before and after the whitespace collapse |
| Normalizer.CleanWords | main.py:50-57 | after lower-casing, trimming, scrubbing and splitting, every word is a non-empty run of `[a-z0-9_]` |
| Normalizer.DropSuffixes | main.py:60 | the kept words are exactly the input words that are not business suffixes |
| Normalizer.DropSuffixesAppend | main.py:60 | the filter of a concatenation is the concatenation of the filters, so kept words keep their order and repetitions |
| Normalizer.DropSuffixesSingle | main.py:60 | a one-word list keeps its word exactly when the word is not a business suffix |
| Normalizer.ExpandAll | main.py:63 | each word is replaced by its abbreviation expansion, position by position |
| Normalizer.NormalizeName | main.py:49-66 | the result has only `[a-z0-9_]` and single inner spaces, with no space at either end |
| Normalizer.ReachableAbbreviation | main.py:22-47 | a cleaned word that survives the suffix filter can only hit the keys "mgmt", "corp", "fz" and "fzc" |
| Normalizer.PunctuatedKeysAreNotTokens | main.py:22-41 | the keys "co.", "l.l.c", "pty.", "ltd.", "llc.", "inc.", "corp." and "&" can never be a cleaned word |
| Normalizer.PunctuatedKeysUnreachable | main.py:22-63 | for every input, each surviving word that is looked up is one of the four reachable keys, and no surviving word expands to "" |
| Normalizer.ExpandCanonical | main.py:63 | a surviving word expands to a non-empty string of name characters and single spaces |
| Normalizer.ExpansionFacts | main.py:24-40 | each reachable key expands to its words ("management"; "corporation"; "free zone"; "free zone company"), which are clean words, and only "corporation" and "company" among them are suffix words |
| Normalizer.JoinCanonical | main.py:66 | joining non-empty canonical pieces with single spaces gives a canonical string |
| Normalizer.StripCanonical | main.py:66 | the final `strip()` leaves a canonical string unchanged |
| Normalizer.CollapseKeepsSingleSpaces | main.py:54 | whitespace collapsing leaves a string with single spaces and no trailing space unchanged |
| Normalizer.CleanWordsOfTokens | main.py:50-57 | cleaning a space-joined list of clean words gives the list back |
| Normalizer.NormalizeCleanWords | main.py:49-66 | normalising clean words just drops the suffix words and expands the rest |
| Normalizer.NormalizeOneWord | main.py:49-66 | a single clean word normalises to "" if it is a suffix word, and to its expansion otherwise |
| Normalizer.NormalizeNotIdempotent | main.py:60-63 | "corp" normalises to "corporation", and a second pass turns that into "" |
| Normalizer.NormalizedSuffixWords | main.py:60-66 | a word of a normalised name is a business suffix only if it is "corporation" or "company", produced by expansion |
| Normalizer.NormalizedHasNoDot | main.py:94-102 | a normalised name has no '.', so splitting it on '.' gives the name itself as the only piece |
| Similarity.AdjustDomainScore | main.py:124-134 | a blend ≤ 0 is returned unchanged. A positive blend with a partial ratio above 30 becomes at least 60, and stays at least the blend unless it is capped at 95. With a partial ratio above 50 the result lies in [90, 95]. A blend in [0, 100] stays in [0, 100] |
| Similarity.DomainSimilarity | main.py:89-134 | with valid libraries the domain score lies in [0, 100] |
| Similarity.DomainSimilarityReduces | main.py:94-121 | the split always yields one piece, so the blend is 0.7 × token-set ratio + 0.3 × partial ratio of the whole normalised domain |
| Similarity.DomainSimilarityThresholds | main.py:116-134 | a partial ratio > 30 with a positive blend gives ≥ 60; a partial ratio > 50 gives [90, 95]; both ratios 0 give 0; a partial ratio ≤ 30 leaves the blend unchanged |
| Similarity.WordBlend | main.py:141-158 | 0 when either name has no words; otherwise, with valid libraries and non-negative weights, between 0 and the sum of the weights |
| Similarity.NameSimilarity | main.py:136-159 | a name that normalises to "" scores 0 against anything; with valid libraries the score lies between 0 and the sum of the weights |
| Similarity.CanonicalWordsEmpty | main.py:141-145 | a normalised name has no words exactly when it is empty |
| Similarity.ShortNamesGetSecondaryWeight | main.py:148-158 | when both names have one or two words, nothing is left for the secondary comparison and the score is at least the secondary weight |
| Similarity.NameSimilaritySelf | main.py:136-159 | a name compared with itself scores the sum of both weights, or 0 if it normalises to "" |
| Similarity.EmailSimilarity | main.py:161-180 | with valid libraries the score lies in [0, 100] |
| Similarity.AtCountKept | main.py:163-164 | lower-casing and trimming keep the number of '@' |
| Similarity.EmailSimilarityShape | main.py:161-180 | the score is 0 unless each address holds exactly one '@'. Then each splits into local part '@' domain part, and the score is (0.7 × local ratio + 0.3 × domain ratio) × 100 |
| Similarity.EmailSimilaritySelf | main.py:161-180 | an address with exactly one '@' compared with itself scores 100 |
| FuzzyLogic.FactorOf | utils/fuzzy_logic.py:23-42 | every factor-record key is the source of some weight factor: the factor returned reads exactly that key |
| FuzzyLogic.Triangular | utils/fuzzy_logic.py:11-19 | the result lies in [0, 1] and is positive exactly when x > a. It is 1 for x ≥ c (x > a) and at the peak. On (a, b] below c it is the rising ramp (x − a)/(b − a); on (b, c) it is the falling ramp (c − x)/(c − b), below 1 |
| FuzzyLogic.TriangularNotMonotone | utils/fuzzy_logic.py:14-19 | with (0, 0.9, 1) the membership is 1 at 0.9, falls to 0.5 at 0.95 and is 1 again at 1.0 |
| FuzzyLogic.Membership | utils/fuzzy_logic.py:24-48 | a factor's membership lies in [0, 1]; it is positive exactly for a positive score and 1 at 0.9 and at ≥ 1 |
| FuzzyLogic.RawWeights | utils/fuzzy_logic.py:22-49 | the de-rated table has the eight base keys; each weight is the factor's membership of its own score times its base weight, so it lies between 0 and the base weight and is 0 exactly when the score is ≤ 0 |
| FuzzyLogic.Derated | utils/fuzzy_logic.py:43-49 | the de-rated weight is membership × base weight; it lies in [0, base weight], is 0 exactly for a score ≤ 0, and is the full base weight for a score of 0.9 or ≥ 1 |
| FuzzyLogic.ScannedKeys | utils/fuzzy_logic.py:52-53 | the suffix test passes for every key except "review_score" and "emirate_confidence" |
| FuzzyLogic.ReduceOnMismatch | utils/fuzzy_logic.py:51-59 | if some scanned key is below 0.7, every weight is halved exactly once; if none is, the table is unchanged |
| FuzzyLogic.ReductionCondition | utils/fuzzy_logic.py:51-59 | over any key list that holds every key, the halving happens exactly when some scanned factor is below 0.7 |
| FuzzyLogic.Renormalize | utils/fuzzy_logic.py:62-64 | each weight times the input total gives back the input weight (the division by the total); with a positive total the weights sum to 1; with total 0 the table is returned unchanged (all 0, no division); zero weights stay the only zeros |
| FuzzyLogic.DividedByTotal | utils/fuzzy_logic.py:62-64 | dividing by a positive total keeps every weight non-negative and its zero pattern, makes the total 1, and multiplying back by the total restores the table |
| FuzzyLogic.DividedKeepsZeros | utils/fuzzy_logic.py:63-64 | dividing non-negative weights by a positive total keeps them non-negative and keeps exactly the zero weights zero |
| FuzzyLogic.DividedSumsToOne | utils/fuzzy_logic.py:62-64 | a table divided by its own non-zero total sums to 1 |
| FuzzyLogic.DivideThenMultiply | utils/fuzzy_logic.py:64 | dividing every weight by a non-zero total and multiplying back gives the original table |
| FuzzyLogic.FuzzyWeights | utils/fuzzy_logic.py:21-66 | the eight keys; every weight ≥ 0, and 0 exactly for a factor scoring ≤ 0; each weight times the de-rated total is the de-rated weight (membership × base weight); total 1 when the de-rated total is positive, all 0 when it is 0 |
| FuzzyLogic.WeightsProportional | utils/fuzzy_logic.py:43-64 | any two returned weights stand in the ratio of the two factors' membership × base weight; the halving and the renormalisation keep every proportion |
| FuzzyLogic.WeightsTotal | utils/fuzzy_logic.py:22-64 | the weights sum to 1 as soon as one factor scores above 0, and are all 0 when none does |
| FuzzyLogic.ReductionFacts | utils/fuzzy_logic.py:57-63 | the halved table keeps its keys, signs and zero pattern, and its total is positive exactly when the original one is |
| FuzzyLogic.SumScale | utils/fuzzy_logic.py:57-64 | scaling every weight by c scales the total by c |
| FuzzyLogic.RenormalizeScaleInvariant | utils/fuzzy_logic.py:57-64 | renormalising a table scaled by any positive constant gives the same result as renormalising the table itself |
| FuzzyLogic.ScaleTwice | utils/fuzzy_logic.py:57-64 | scaling by c and then by d is scaling by c·d |
| FuzzyLogic.MismatchCancels | utils/fuzzy_logic.py:51-66 | the returned weights equal the renormalised de-rated weights: the halving never shows in the output |
| FuzzyLogic.Classify | utils/fuzzy_logic.py:113-120 | High only without mismatch; without mismatch High exactly at ≥ 0.8; Moderate or better exactly at ≥ 0.6; Low or better exactly at ≥ 0.4 |
| FuzzyLogic.ClassifyMonotone | utils/fuzzy_logic.py:113-120 | a higher total, or dropping the mismatch, never gives a lower level |
| FuzzyLogic.FuzzyScore | utils/fuzzy_logic.py:68-122 | High implies no factor below 0.7 and a score ≥ 80; Moderate or better exactly at ≥ 60; Low or better exactly at ≥ 40 |
| FuzzyLogic.HighIff | utils/fuzzy_logic.py:99-120 | the level is High exactly when the score is ≥ 80 and no factor is below 0.7 |
| FuzzyLogic.MismatchScansDiffer | utils/fuzzy_logic.py:51-59 | a weight mismatch implies a score mismatch, but not conversely: a review score of 0.5 alone penalises the score without halving the weights |
| FuzzyLogic.SignificantMismatch | utils/fuzzy_logic.py:98-103 | there is a mismatch exactly when the in-order scan over the eight scores meets one below 0.7 |
| FuzzyLogic.ScanBelow | utils/fuzzy_logic.py:99-102 | the loop that breaks at the first score below 0.7 reports one exactly when some listed factor's score is below 0.7 |
| FuzzyLogic.WeightedSum | utils/fuzzy_logic.py:106 | the weighted sum equals the running total of score × weight over the eight factors in order |
| FuzzyLogic.ProductSumOfFactors | utils/fuzzy_logic.py:106 | the in-order generator sum of score × weight equals the sum of the per-factor contributions |
| FuzzyLogic.WeightedSumBounds | utils/fuzzy_logic.py:106 | with scores in [0, 1] and non-negative weights, the weighted sum lies between 0 and the total weight |
| FuzzyLogic.WeightedSumAtLeast | utils/fuzzy_logic.py:106 | with every score at least lo, the weighted sum is at least lo × total weight |
| FuzzyLogic.ScoreBounds | utils/fuzzy_logic.py:106-122 | with every factor in [0, 1] the score lies in [0, 100]; under a mismatch it is at most 70 and never High |
| FuzzyLogic.PositiveScoresWeights | utils/fuzzy_logic.py:22-64 | with every factor positive, every weight is positive and the weights sum to 1 |
| FuzzyLogic.StrongFactorsScore | utils/fuzzy_logic.py:99-122 | with every factor at least lo ≥ 0.7 there is no mismatch and the score is at least 100·lo |
| FuzzyLogic.StrongWeightedSum | utils/fuzzy_logic.py:62-106 | with every factor at least lo > 0, the weighted sum of the fuzzy weights is at least lo |
| FuzzyLogic.NormalisedSumAtLeast | utils/fuzzy_logic.py:106 | with non-negative weights summing to 1 and every score at least lo, the weighted sum is at least lo |
| FuzzyLogic.UnpenalisedScore | utils/fuzzy_logic.py:106-122 | without a mismatch the score is the weighted sum in percent |
| FuzzyLogic.PenalisedScore | utils/fuzzy_logic.py:106-122 | under a mismatch the score is the weighted sum times 0.7, in percent |
| FuzzyLogic.NoMismatchIsHighOrModerate | utils/fuzzy_logic.py:99-120 | with no factor below 0.7 the score is ≥ 70 and the level is High or Moderate |
| FuzzyLogic.HighWhenAllFactorsStrong | utils/fuzzy_logic.py:99-120 | with every factor at least 0.8 the level is High |
| Legitimacy.PairScore | main.py:199-220 | two 0.5 presence tests give 0 exactly when neither holds, 0.5 when one holds, and 1 when both hold |
| Legitimacy.WebsiteSimilarity | main.py:190-196 | 0 unless the website starts with "http" and its extracted domain is non-empty; otherwise the domain score divided by 100, which lies in [0, 1] with valid libraries |
| Legitimacy.ReviewCountComponent | main.py:231-240 | the review-count step lies in [0.05, 0.3]; it is 0.3 from 100 reviews on, 0.2 from 50, 0.15 from 25, 0.1 from 10 and 0.05 below 10, and each step is taken exactly in its range |
| Legitimacy.ReviewScore | main.py:223-243 | 0 without a non-zero rating or without reviews; otherwise 0.7·rating/5 plus the count step, in (0.05, 1] for a rating in (0, 5] |
| Legitimacy.ReviewCountMonotone | main.py:231-240 | more reviews never give a smaller step |
| Legitimacy.ReviewScoreMonotone | main.py:223-242 | with a rating and reviews, a higher rating or more reviews never lowers the review score |
| Legitimacy.PresentCount | main.py:246 | the number of present fields is at most the number of fields looked at |
| Legitimacy.ProfileCompleteness | main.py:246-247 | the profile completeness lies in [0, 1], and seven times it is the number of present required fields |
| Legitimacy.RequiredFieldsCount | main.py:246 | the count of present required fields is one per set field among name, address, phone, website, opening hours, rating and review count |
| Legitimacy.RequiredFieldsRead | config/weights.py:45-53 | each of the seven required field names reads the record field of that name |
| Legitimacy.ProfileCompletenessExtremes | main.py:246-247 | profile completeness is 1 exactly when all seven fields are set and 0 exactly when none is |
| Legitimacy.EmirateConfidence | main.py:250-256 | 1 exactly for a valid emirate; 0.5 exactly for an invalid one with "high" confidence; 0 otherwise, including no validation |
| Legitimacy.ExtractFactors | main.py:186-257 | contact, location and operational each lie in {0, 0.5, 1}: 1 exactly when both tests hold, 0 exactly when neither does. The profile factor is a count of fields over 7, and emirate confidence is the confidence of the record's emirate validation |
| Legitimacy.FactorsInUnitRange | main.py:186-257 | with valid libraries and a rating in [0, 5], every one of the eight factors lies in [0, 1] |
| Legitimacy.Breakdown | main.py:266 | the breakdown has every factor key, each mapped to its score in percent |
| Legitimacy.Percent | main.py:267 | each percent weight is 100 times its weight, so they are non-negative, keep the zero pattern and total 100 times the weights' total |
| Legitimacy.ReportOf | main.py:259-267 | the report's score and level are those of the fuzzy assessment; it holds every factor in percent and every fuzzy weight in percent (0 exactly for a factor scoring ≤ 0); High exactly at ≥ 80 without a factor below 0.7; Moderate or better exactly at ≥ 60; Low or better exactly at ≥ 40 |
| Legitimacy.CalculateBusinessLegitimacy | main.py:182-267 | the score and level are the fuzzy assessment of the extracted factors; the breakdown is each extracted factor in percent, and the weights are the fuzzy weights of those factors in percent; High exactly at a score ≥ 80 with no factor below 0.7; Moderate or better exactly at ≥ 60; Low or better exactly at ≥ 40 |
| Legitimacy.ReportBounds | main.py:259-264 | with every factor in [0, 1], the score and every breakdown entry lie in [0, 100] |
| Legitimacy.ReportWeightsTotal | main.py:259-267 | the reported weights total 100 as soon as one factor scores above 0, and are all 0 when none does |
| Legitimacy.PercentTotals | main.py:267 | weights totalling 1 total 100 in percent, and zero weights stay zero |
| Legitimacy.RecordReportBounds | main.py:182-267 | with valid libraries and a rating in [0, 5], the score and the breakdown are percentages |
| Legitimacy.RecordWeightsTotal | main.py:245-267 | a record with any one required field set gets reported weights totalling 100 |
| Legitimacy.NameOnlyFactors | main.py:186-257 | a record with only its name, searched under that name, has factors (1, 0, 0, 0, 0, 0, 1/7, 0) |
| Legitimacy.NameOnlyWeights | utils/fuzzy_logic.py:21-66 | for those factors the weights are 189/209 for the name and 20/209 for the profile, and 0 for the rest |
| Legitimacy.NameOnlyScore | utils/fuzzy_logic.py:68-122 | those factors score between 64.25 and 64.26: Moderate |
| Legitimacy.NameOnlyRecordIsModerate | main.py:182-267 | a name-only record searched under its own (non-empty after normalisation) name is rated Moderate with a score just over 64.25 |

## Left out

- Fetching the record is not modelled: the Google Places and Nominatim calls, the web search scraper, the JSON and CSV output and the console formatting. The place record is an input.
- The emirate validation comes from the geocoder, so it is an input (`EmirateValidation`) rather than computed.
- `extract_domain_name` is an opaque function of the library bundle and is not modelled (main.py:68-87). It is built on `tldextract`, whose public-suffix data is not part of this model.
- `difflib.SequenceMatcher.ratio`, `fuzz.token_set_ratio` and `fuzz.partial_ratio` are opaque. The model only assumes their ranges, and that a sequence ratio of equal strings is 1.
- The report uses exact reals, so `round(..., 2)` at main.py:264-267 and IEEE float rounding are not modelled.
- Python's Unicode `lower()`, `isspace()` and `\w` are restricted to ASCII. A non-ASCII letter is scrubbed to a space here, but Python keeps it.
- `remaining_domain` (main.py:99, main.py:102) is computed but never used, so it is not modelled.
- `COLOR_THRESHOLDS` in both configuration files are display-only and not modelled.
- The factor dictionary is a fixed eight-field record. The source's `data.get(key, 0)` defaults never apply, because the extractor always fills all eight keys.
- FuzzyLogic.ReduceOnMismatch: the scan is stated with `IsScanned`, the key set the suffix test selects, and not with the string test itself. `FuzzyLogic.ScannedKeys` proves the two agree on every key.
- Place records: a missing field and a falsy one (empty string, zero rating, zero count) are the same value, and no field can be present as `None`. In Python some required fields present as `None` raise instead of scoring: a `None` name fails in `normalize_name` (main.py:187, main.py:139, main.py:50), a `None` geometry fails at `.get('location')` (main.py:210), and a `None` review count fails the comparison `reviews_count > 0` (main.py:225-226). The model has no such error paths.
- Legitimacy.FactorsInUnitRange: assumes a rating in [0, 5], the range the places service reports. The code does not check it, and a larger rating gives a review score above 1.
- Legitimacy.RecordReportBounds: assumes a rating in [0, 5], for the same reason.
- Normalizer.NormalizeNotIdempotent: it shows the non-idempotence on the single word "corp". "acme corp" and "fzc" behave the same way: "fzc" becomes "free zone company", and a second pass drops "company".

## Notes on the source

These are places where the code differs from what its comments and tables suggest. The model follows the code throughout.

- The base weights and the legitimacy weights add up to 1.05, and the display weights to 105, not 100. Renormalisation hides this in the score (`FuzzyConfig.BaseWeightsTotal`, `WeightsConfig.DisplayWeightsArePercentages`).
- The comments next to the level thresholds in config/fuzzy_config.py:70-73 say 90%, 70% and 50%. The values used are 0.8, 0.6 and 0.4.
- `normalize_name` is not idempotent: suffix filtering runs before abbreviation expansion.
- In the domain similarity, the branch for two or more labels can never run, because a normalised name has no '.'. The "second-level" comparisons therefore repeat the full-domain ones.
- The domain score is raised to 60 only when the blend is already positive.
- With a partial ratio above 50, the "boost" caps at 95, which lowers a blend above 95.
- The weight mismatch scan skips the review score and the emirate confidence. The score mismatch scan looks at all eight factors.
- The ×0.5 weight reduction has no effect on the result, because renormalisation undoes it (`FuzzyLogic.MismatchCancels`).
- A record with nothing but a name that matches the search scores about 64.26 and is rated Moderate. Its profile completeness is 1/7, which keeps a small weight.

=== FILE: fuzzy_config.dfy ===
/**
 The static tables of the fuzzy scoring engine: one triangular membership
 function and one base weight per factor, the mismatch constants and the
 legitimacy-level cut-offs.
 */
module FuzzyConfig {

  /** The eight factors, named after the keys of the weight tables. */
  datatype Factor =
    | NameMatch      // 'name_match'
    | WebsiteMatch   // 'website_match'
    | ContactInfo    // 'contact_info'
    | Location       // 'location'
    | Operational    // 'operational'
    | Reviews        // 'reviews'
    | Completeness   // 'completeness'
    | EmirateMatch   // 'emirate_match'

  /** The factors in the order the weight tables list them. */
  const Factors: seq<Factor> :=
    [NameMatch, WebsiteMatch, ContactInfo, Location, Operational, Reviews, Completeness, EmirateMatch]

  /** Vertices of a triangular membership function: left `a`, peak `b`, right `c`. */
  datatype Triangle = Triangle(a: real, b: real, c: real) {
    predicate WellFormed() {
      a < b < c
    }
  }

  const MembershipParams: map<Factor, Triangle> := map[
    NameMatch := Triangle(0.0, 0.9, 1.0),
    WebsiteMatch := Triangle(0.0, 0.9, 1.0),
    ContactInfo := Triangle(0.0, 0.9, 1.0),
    Location := Triangle(0.0, 0.9, 1.0),
    Operational := Triangle(0.0, 0.9, 1.0),
    Reviews := Triangle(0.0, 0.9, 1.0),
    Completeness := Triangle(0.0, 0.9, 1.0),
    EmirateMatch := Triangle(0.0, 0.9, 1.0)
  ]

  const BaseWeights: map<Factor, real> := map[
    NameMatch := 0.15,
    WebsiteMatch := 0.15,
    ContactInfo := 0.15,
    Location := 0.15,
    Operational := 0.15,
    Reviews := 0.15,
    Completeness := 0.1,
    EmirateMatch := 0.05
  ]

  /** A factor score below `significant` is a significant mismatch; the weights
      are then scaled by `weightReduction` and the score by `scoreReduction`. */
  datatype MismatchConstants = MismatchConstants(significant: real, weightReduction: real, scoreReduction: real)

  const MismatchThresholds := MismatchConstants(0.7, 0.5, 0.7)

  /** Lower bounds of the four legitimacy levels. */
  datatype LevelThresholds = LevelThresholds(high: real, moderate: real, low: real, veryLow: real)

  const LegitimacyThresholds := LevelThresholds(0.8, 0.6, 0.4, 0.0)

  /** A table with an entry for every factor. */
  predicate Complete<V>(m: map<Factor, V>) {
    forall f: Factor :: f in m
  }

  /** `sum(w.values())` of a table whose keys are exactly the eight factors,
      added in the order the tables list them. */
  function Sum(w: map<Factor, real>): (r: real)
    requires Complete(w)
    ensures (forall f: Factor :: w[f] >= 0.0) ==> r >= 0.0 && (r == 0.0 <==> forall f: Factor :: w[f] == 0.0)
  {
    var r := w[NameMatch] + w[WebsiteMatch] + w[ContactInfo] + w[Location]
      + w[Operational] + w[Reviews] + w[Completeness] + w[EmirateMatch];
    if forall f: Factor :: w[f] >= 0.0 then
      ZeroTotalHasZeroTerms(w, r);
      r
    else
      r
  }

  lemma ZeroTotalHasZeroTerms(w: map<Factor, real>, total: real)
    requires Complete(w) && forall f: Factor :: w[f] >= 0.0
    requires total == w[NameMatch] + w[WebsiteMatch] + w[ContactInfo] + w[Location]
      + w[Operational] + w[Reviews] + w[Completeness] + w[EmirateMatch]
    ensures total >= 0.0
    ensures total == 0.0 ==> forall f: Factor :: w[f] == 0.0
  {
    if total == 0.0 {
      forall f: Factor ensures w[f] == 0.0 {
        match f
        case NameMatch =>
        case WebsiteMatch =>
        case ContactInfo =>
        case Location =>
        case Operational =>
        case Reviews =>
        case Completeness =>
        case EmirateMatch =>
      }
    }
  }

  /** Totals are monotone in the entries. */
  lemma SumMonotone(u: map<Factor, real>, v: map<Factor, real>)
    requires Complete(u) && Complete(v)
    requires forall f: Factor :: u[f] <= v[f]
    ensures Sum(u) <= Sum(v)
  {
  }

  // ---------------------------------------------------------------------
  // Facts about the reference tables.
  // ---------------------------------------------------------------------

  lemma FactorsListsEveryFactorOnce()
    ensures forall f: Factor :: f in Factors
    ensures forall i, j :: 0 <= i < j < |Factors| ==> Factors[i] != Factors[j]
  {
    forall f: Factor ensures f in Factors {
      match f
      case NameMatch => assert Factors[0] == f;
      case WebsiteMatch => assert Factors[1] == f;
      case ContactInfo => assert Factors[2] == f;
      case Location => assert Factors[3] == f;
      case Operational => assert Factors[4] == f;
      case Reviews => assert Factors[5] == f;
      case Completeness => assert Factors[6] == f;
      case EmirateMatch => assert Factors[7] == f;
    }
  }

  /** Both tables are keyed by exactly the eight factors. */
  lemma TablesHaveSameKeys()
    ensures Complete(MembershipParams) && Complete(BaseWeights)
    ensures MembershipParams.Keys == BaseWeights.Keys
  {
    forall f: Factor ensures f in MembershipParams && f in BaseWeights {
      match f
      case NameMatch =>
      case WebsiteMatch =>
      case ContactInfo =>
      case Location =>
      case Operational =>
      case Reviews =>
      case Completeness =>
      case EmirateMatch =>
    }
  }

  /** Every membership triangle is 0 < 0.9 < 1.0. */
  lemma MembershipParamsWellFormed()
    ensures forall f: Factor :: f in MembershipParams && MembershipParams[f].WellFormed()
    ensures forall f: Factor :: MembershipParams[f] == Triangle(0.0, 0.9, 1.0)
  {
    TablesHaveSameKeys();
    forall f: Factor ensures MembershipParams[f] == Triangle(0.0, 0.9, 1.0) {
      match f
      case NameMatch =>
      case WebsiteMatch =>
      case ContactInfo =>
      case Location =>
      case Operational =>
      case Reviews =>
      case Completeness =>
      case EmirateMatch =>
    }
  }

  /** The base weights are positive. They add up to 1.05, not 1: six factors
      at 0.15, one at 0.1 and one at 0.05. Renormalisation absorbs the excess. */
  lemma BaseWeightsTotal()
    ensures forall f: Factor :: f in BaseWeights && BaseWeights[f] > 0.0
    ensures Sum(BaseWeights) == 1.05
  {
    TablesHaveSameKeys();
    forall f: Factor ensures BaseWeights[f] > 0.0 {
      match f
      case NameMatch =>
      case WebsiteMatch =>
      case ContactInfo =>
      case Location =>
      case Operational =>
      case Reviews =>
      case Completeness =>
      case EmirateMatch =>
    }
  }

  /** The level cut-offs are strictly decreasing; both reductions shrink. */
  lemma ThresholdsOrdered()
    ensures LegitimacyThresholds.high > LegitimacyThresholds.moderate > LegitimacyThresholds.low > LegitimacyThresholds.veryLow
    ensures MismatchThresholds.significant == 0.7
    ensures 0.0 < MismatchThresholds.weightReduction < 1.0
    ensures 0.0 < MismatchThresholds.scoreReduction < 1.0
  {
  }
}

=== FILE: fuzzy_logic.dfy ===
/**
 The fuzzy scoring engine: a triangular membership function de-rates each
 base weight by how well its factor scored, a mismatch rule scales the
 weights, the weights are renormalised, and the aggregate score is the
 weighted sum of the factor scores, penalised when any factor is weak and
 classified into four legitimacy levels.
 */
module FuzzyLogic {
  import opened Text
  import opened FuzzyConfig
  import opened RealArith

  // ---------------------------------------------------------------------
  // The factor record
  // ---------------------------------------------------------------------

  /** The keys of the factor dictionary, in the order they are inserted. */
  datatype DataKey =
    | NameSimilarityKey
    | WebsiteSimilarityKey
    | ContactCompletenessKey
    | LocationCompletenessKey
    | OperationalCompletenessKey
    | ReviewScoreKey
    | ProfileCompletenessKey
    | EmirateConfidenceKey

  function KeyName(k: DataKey): string {
    match k
    case NameSimilarityKey => "name_similarity"
    case WebsiteSimilarityKey => "website_similarity"
    case ContactCompletenessKey => "contact_completeness"
    case LocationCompletenessKey => "location_completeness"
    case OperationalCompletenessKey => "operational_completeness"
    case ReviewScoreKey => "review_score"
    case ProfileCompletenessKey => "profile_completeness"
    case EmirateConfidenceKey => "emirate_confidence"
  }

  const DataKeys: seq<DataKey> := [
    NameSimilarityKey, WebsiteSimilarityKey, ContactCompletenessKey, LocationCompletenessKey,
    OperationalCompletenessKey, ReviewScoreKey, ProfileCompletenessKey, EmirateConfidenceKey
  ]

  /** The eight factor scores the extractor produces. */
  datatype FactorScores = FactorScores(
    nameSimilarity: real,
    websiteSimilarity: real,
    contactCompleteness: real,
    locationCompleteness: real,
    operationalCompleteness: real,
    reviewScore: real,
    profileCompleteness: real,
    emirateConfidence: real)
  {
    function Get(k: DataKey): real {
      match k
      case NameSimilarityKey => nameSimilarity
      case WebsiteSimilarityKey => websiteSimilarity
      case ContactCompletenessKey => contactCompleteness
      case LocationCompletenessKey => locationCompleteness
      case OperationalCompletenessKey => operationalCompleteness
      case ReviewScoreKey => reviewScore
      case ProfileCompletenessKey => profileCompleteness
      case EmirateConfidenceKey => emirateConfidence
    }

    predicate InUnitRange() {
      forall k: DataKey :: 0.0 <= Get(k) <= 1.0
    }
  }

  /** The dictionary key each weight factor reads its score from. */
  function SourceKey(f: Factor): DataKey {
    match f
    case NameMatch => NameSimilarityKey
    case WebsiteMatch => WebsiteSimilarityKey
    case ContactInfo => ContactCompletenessKey
    case Location => LocationCompletenessKey
    case Operational => OperationalCompletenessKey
    case Reviews => ReviewScoreKey
    case Completeness => ProfileCompletenessKey
    case EmirateMatch => EmirateConfidenceKey
  }

  function Score(data: FactorScores, f: Factor): real {
    data.Get(SourceKey(f))
  }

  /** The factor that reads a key: the inverse of `SourceKey`. */
  function FactorOf(k: DataKey): (f: Factor)
    ensures SourceKey(f) == k
  {
    match k
    case NameSimilarityKey => NameMatch
    case WebsiteSimilarityKey => WebsiteMatch
    case ContactCompletenessKey => ContactInfo
    case LocationCompletenessKey => Location
    case OperationalCompletenessKey => Operational
    case ReviewScoreKey => Reviews
    case ProfileCompletenessKey => Completeness
    case EmirateConfidenceKey => EmirateMatch
  }

  // ---------------------------------------------------------------------
  // Membership
  // ---------------------------------------------------------------------

  /** `triangular_membership(x, a, b, c)`. The tests come in the source's order,
      so the left foot wins over the right shoulder, and neither division can
      be by zero whatever the vertices are. */
  function Triangular(x: real, a: real, b: real, c: real): (r: real)
    ensures 0.0 <= r <= 1.0
    ensures r > 0.0 <==> x > a
    ensures a < x && x >= c ==> r == 1.0
    ensures a < x == b ==> r == 1.0
    ensures b < x < c ==> r < 1.0
    ensures a < x <= b && x < c ==> r * (b - a) == x - a
    ensures a < x && b < x < c ==> r * (c - b) == c - x
  {
    if x <= a then 0.0
    else if x >= c then 1.0
    else if a < x <= b then
      RatioInUnit(x - a, b - a);
      (x - a) / (b - a)
    else
      RatioInUnit(c - x, c - b);
      (c - x) / (c - b)
  }

  /** The function is not monotone: past the peak it falls, and at the right
      vertex it jumps back to 1. */
  lemma TriangularNotMonotone()
    ensures Triangular(0.9, 0.0, 0.9, 1.0) == 1.0
    ensures Triangular(0.95, 0.0, 0.9, 1.0) == 0.5
    ensures Triangular(1.0, 0.0, 0.9, 1.0) == 1.0
  {
  }

  /** Membership of a score in a factor's triangle. */
  function Membership(f: Factor, x: real): (r: real)
    ensures 0.0 <= r <= 1.0
    ensures r > 0.0 <==> x > 0.0
    ensures x >= 1.0 || x == 0.9 ==> r == 1.0
  {
    MembershipParamsWellFormed();
    var p := MembershipParams[f];
    Triangular(x, p.a, p.b, p.c)
  }

  // ---------------------------------------------------------------------
  // Weights
  // ---------------------------------------------------------------------

  /** The first loop of `calculate_fuzzy_weights`: each base weight times the
      membership of its factor's score. */
  function RawWeights(data: FactorScores): (w: map<Factor, real>)
    ensures w.Keys == BaseWeights.Keys && Complete(w)
    ensures forall f: Factor :: 0.0 <= w[f] <= BaseWeights[f]
    ensures forall f: Factor :: w[f] == 0.0 <==> Score(data, f) <= 0.0
    ensures forall f: Factor :: w[f] == Membership(f, Score(data, f)) * BaseWeights[f]
  {
    TablesHaveSameKeys();
    map f | f in BaseWeights.Keys :: Derated(f, Score(data, f))
  }

  /** `membership * base_weight` for one factor: within the base weight, the
      full base weight on the plateau of the triangle, and 0 exactly when the
      score is not positive. */
  function Derated(f: Factor, x: real): (r: real)
    ensures f in BaseWeights && 0.0 <= r <= BaseWeights[f]
    ensures r == 0.0 <==> x <= 0.0
    ensures x >= 1.0 || x == 0.9 ==> r == BaseWeights[f]
    ensures r == Membership(f, x) * BaseWeights[f]
  {
    BaseWeightsTotal();
    var m, base := Membership(f, x), BaseWeights[f];
    ScaleWithinUnit(m, base);
    assert m > 0.0 ==> m * base > 0.0 by {
      if m > 0.0 {
        MulPositive(m, base);
      }
    }
    m * base
  }

  /** Every value of a table multiplied by `c`. */
  function Scale(w: map<Factor, real>, c: real): (r: map<Factor, real>)
    ensures r.Keys == w.Keys
    ensures forall f <- w :: r[f] == w[f] * c
  {
    map f | f in w :: w[f] * c
  }

  /** The test of the mismatch scan: the key name ends in "_similarity" or
      "_completeness". */
  predicate HasScannedSuffix(k: DataKey) {
    EndsWith(KeyName(k), "_similarity") || EndsWith(KeyName(k), "_completeness")
  }

  /** The keys that pass the test, as `ScannedKeys` shows: all but the review
      score and the emirate confidence. The scan is stated with this form,
      which the solver handles without unfolding the key names. */
  predicate IsScanned(k: DataKey) {
    k != ReviewScoreKey && k != EmirateConfidenceKey
  }

  lemma EndsWithJoined(p: string, suffix: string)
    ensures EndsWith(p + suffix, suffix)
  {
    assert (p + suffix)[|p|..] == suffix;
  }

  lemma NotEndsWithAt(s: string, suffix: string, i: nat)
    requires |suffix| <= |s| && i < |suffix|
    requires s[|s| - |suffix| + i] != suffix[i]
    ensures !EndsWith(s, suffix)
  {
    assert s[|s| - |suffix|..][i] == s[|s| - |suffix| + i];
  }

  lemma SimilarityKeysScanned()
    ensures HasScannedSuffix(NameSimilarityKey) && HasScannedSuffix(WebsiteSimilarityKey)
  {
    assert KeyName(NameSimilarityKey) == "name" + "_similarity";
    EndsWithJoined("name", "_similarity");
    assert KeyName(WebsiteSimilarityKey) == "website" + "_similarity";
    EndsWithJoined("website", "_similarity");
  }

  lemma ContactLocationKeysScanned()
    ensures HasScannedSuffix(ContactCompletenessKey) && HasScannedSuffix(LocationCompletenessKey)
  {
    assert KeyName(ContactCompletenessKey) == "contact" + "_completeness";
    EndsWithJoined("contact", "_completeness");
    assert KeyName(LocationCompletenessKey) == "location" + "_completeness";
    EndsWithJoined("location", "_completeness");
  }

  lemma OperationalProfileKeysScanned()
    ensures HasScannedSuffix(OperationalCompletenessKey) && HasScannedSuffix(ProfileCompletenessKey)
  {
    assert KeyName(OperationalCompletenessKey) == "operational" + "_completeness";
    EndsWithJoined("operational", "_completeness");
    assert KeyName(ProfileCompletenessKey) == "profile" + "_completeness";
    EndsWithJoined("profile", "_completeness");
  }

  lemma ReviewKeySkipped()
    ensures !HasScannedSuffix(ReviewScoreKey)
  {
    var name := KeyName(ReviewScoreKey);
    assert |name| == 12 && name[1] == 'e';
    NotEndsWithAt(name, "_similarity", 0);
  }

  lemma EmirateKeySkipped()
    ensures !HasScannedSuffix(EmirateConfidenceKey)
  {
    var name := KeyName(EmirateConfidenceKey);
    assert |name| == 18 && name[8] == 'c' && name[5] == 't';
    NotEndsWithAt(name, "_similarity", 1);
    NotEndsWithAt(name, "_completeness", 0);
  }

  /** The suffix test passes exactly for the keys other than the review score
      and the emirate confidence. */
  lemma ScannedKeys(k: DataKey)
    ensures HasScannedSuffix(k) <==> IsScanned(k)
  {
    SimilarityKeysScanned();
    ContactLocationKeysScanned();
    OperationalProfileKeysScanned();
    ReviewKeySkipped();
    EmirateKeySkipped();
  }

  /** The mismatch loop of `calculate_fuzzy_weights` over the keys `keys`: the
      first scanned key below the threshold scales every weight once and stops
      the loop. */
  function ReduceOnMismatch(data: FactorScores, keys: seq<DataKey>, w: map<Factor, real>): (r: map<Factor, real>)
    ensures (exists i :: 0 <= i < |keys| && IsScanned(keys[i]) && data.Get(keys[i]) < MismatchThresholds.significant)
      ==> r == Scale(w, MismatchThresholds.weightReduction)
    ensures (forall i :: 0 <= i < |keys| && IsScanned(keys[i]) ==> data.Get(keys[i]) >= MismatchThresholds.significant)
      ==> r == w
  {
    if |keys| == 0 then w
    else if IsScanned(keys[0]) && data.Get(keys[0]) < MismatchThresholds.significant then
      Scale(w, MismatchThresholds.weightReduction)
    else
      var r := ReduceOnMismatch(data, keys[1..], w);
      assert forall i :: 1 <= i < |keys| ==> keys[i] == keys[1..][i - 1];
      r
  }

  /** Some scanned key of the factor record is below the mismatch threshold. */
  predicate WeightMismatch(data: FactorScores) {
    exists k: DataKey :: IsScanned(k) && data.Get(k) < MismatchThresholds.significant
  }

  /** `total_weight > 0` and the division by it. */
  function Renormalize(w: map<Factor, real>): (r: map<Factor, real>)
    requires Complete(w)
    requires forall f: Factor :: w[f] >= 0.0
    ensures Complete(r) && r.Keys == w.Keys
    ensures forall f: Factor :: r[f] >= 0.0
    ensures Sum(w) > 0.0 ==> Sum(r) == 1.0
    ensures Sum(w) == 0.0 ==> r == w && forall f: Factor :: r[f] == 0.0
    ensures forall f: Factor :: r[f] == 0.0 <==> w[f] == 0.0
    ensures Scale(r, Sum(w)) == w
  {
    if Sum(w) > 0.0 then
      DividedByTotal(w);
      Scale(w, 1.0 / Sum(w))
    else
      ScaleOfZeros(w, Sum(w));
      w
  }

  /** A table of zeros is unchanged by any scaling. */
  lemma ScaleOfZeros(w: map<Factor, real>, c: real)
    requires Complete(w) && forall f: Factor :: w[f] == 0.0
    ensures Scale(w, c) == w
  {
    var r := Scale(w, c);
    forall f | f in w ensures r[f] == w[f] {
      assert w[f] == 0.0;
    }
  }

  /** Dividing a table with a positive total by that total keeps the zero
      pattern and makes the total 1. */
  lemma DividedByTotal(w: map<Factor, real>)
    requires Complete(w) && forall f: Factor :: w[f] >= 0.0
    requires Sum(w) > 0.0
    ensures Complete(Scale(w, 1.0 / Sum(w)))
    ensures forall f: Factor :: Scale(w, 1.0 / Sum(w))[f] >= 0.0 && (Scale(w, 1.0 / Sum(w))[f] == 0.0 <==> w[f] == 0.0)
    ensures Sum(Scale(w, 1.0 / Sum(w))) == 1.0
    ensures Scale(Scale(w, 1.0 / Sum(w)), Sum(w)) == w
  {
    DividedKeepsZeros(w, Sum(w));
    DividedSumsToOne(w, Sum(w));
    DivideThenMultiply(w, Sum(w));
  }

  /** Dividing non-negative weights by a positive number keeps signs and zeros. */
  lemma DividedKeepsZeros(w: map<Factor, real>, s: real)
    requires Complete(w) && forall f: Factor :: w[f] >= 0.0
    requires s > 0.0
    ensures Complete(Scale(w, 1.0 / s))
    ensures forall f: Factor :: Scale(w, 1.0 / s)[f] >= 0.0 && (Scale(w, 1.0 / s)[f] == 0.0 <==> w[f] == 0.0)
  {
    var d := 1.0 / s;
    var r := Scale(w, d);
    assert d > 0.0;
    forall f: Factor ensures r[f] >= 0.0 && (r[f] == 0.0 <==> w[f] == 0.0) {
      ZeroPattern(w[f], d);
    }
  }

  /** Dividing by the total makes the total 1. */
  lemma DividedSumsToOne(w: map<Factor, real>, s: real)
    requires Complete(w) && s == Sum(w) && s != 0.0
    ensures Sum(Scale(w, 1.0 / s)) == 1.0
  {
    var d := 1.0 / s;
    SumScale(w, d);
    InverseCancels(s);
    var t := Sum(Scale(w, d));
    assert t == s * d;
  }

  /** Scaling by `1 / s` and then by `s` gives the table back. */
  lemma DivideThenMultiply(w: map<Factor, real>, s: real)
    requires s != 0.0
    ensures Scale(Scale(w, 1.0 / s), s) == w
  {
    var d := 1.0 / s;
    InverseCancels(s);
    var e := d * s;
    assert e == 1.0;
    ScaleTwice(w, d, s);
    assert Scale(w, e) == Scale(w, 1.0);
    ScaleByOne(w);
  }

  /** Scaling by 1 changes nothing. */
  lemma ScaleByOne(w: map<Factor, real>)
    ensures Scale(w, 1.0) == w
  {
  }

  /** `calculate_fuzzy_weights(data)`: the renormalised, possibly reduced,
      de-rated base weights. */
  function FuzzyWeights(data: FactorScores): (r: map<Factor, real>)
    ensures Complete(r) && r.Keys == BaseWeights.Keys
    ensures forall f: Factor :: r[f] >= 0.0
    ensures forall f: Factor :: r[f] == 0.0 <==> Score(data, f) <= 0.0
    ensures Sum(RawWeights(data)) > 0.0 ==> Sum(r) == 1.0
    ensures Sum(RawWeights(data)) == 0.0 ==> forall f: Factor :: r[f] == 0.0
    ensures Scale(r, Sum(RawWeights(data))) == RawWeights(data)
  {
    var raw := RawWeights(data);
    var reduced := ReduceOnMismatch(data, DataKeys, raw);
    ReductionOfFactorRecord(data, raw);
    ReductionFacts(raw, reduced);
    assert Renormalize(reduced) == Renormalize(raw) by {
      if reduced != raw {
        RenormalizeScaleInvariant(raw, MismatchThresholds.weightReduction);
      }
    }
    Renormalize(reduced)
  }

  /** Any two weights stand in the ratio of their de-rated base weights
      (`RawWeights` gives each as membership times base weight): the
      renormalisation, and the halving before it, keep every proportion. */
  lemma WeightsProportional(data: FactorScores, f: Factor, g: Factor)
    ensures FuzzyWeights(data)[f] * RawWeights(data)[g] == FuzzyWeights(data)[g] * RawWeights(data)[f]
  {
    CrossRatio(FuzzyWeights(data), RawWeights(data), Sum(RawWeights(data)), f, g);
  }

  /** A table that scales to `raw` has the cross-ratios of `raw`. */
  lemma CrossRatio(w: map<Factor, real>, raw: map<Factor, real>, s: real, f: Factor, g: Factor)
    requires Complete(w) && Scale(w, s) == raw
    ensures w[f] * raw[g] == w[g] * raw[f]
  {
    assert raw[f] == w[f] * s && raw[g] == w[g] * s;
    calc {
      w[f] * raw[g];
      w[f] * (w[g] * s);
      w[g] * (w[f] * s);
      w[g] * raw[f];
    }
  }

  /** The mismatch loop leaves either the table or its half, so nothing the
      renormalisation needs is lost. */
  lemma ReductionFacts(raw: map<Factor, real>, reduced: map<Factor, real>)
    requires Complete(raw) && forall f: Factor :: raw[f] >= 0.0
    requires reduced == raw || reduced == Scale(raw, MismatchThresholds.weightReduction)
    ensures Complete(reduced) && reduced.Keys == raw.Keys
    ensures forall f: Factor :: reduced[f] >= 0.0 && (reduced[f] == 0.0 <==> raw[f] == 0.0)
    ensures Sum(raw) > 0.0 <==> Sum(reduced) > 0.0
    ensures Sum(raw) == 0.0 <==> Sum(reduced) == 0.0
  {
    if reduced != raw {
      SumScale(raw, MismatchThresholds.weightReduction);
    }
  }

  // ---------------------------------------------------------------------
  // Sums of weight tables
  // ---------------------------------------------------------------------

  /** Scaling every weight scales the total. */
  lemma SumScale(w: map<Factor, real>, c: real)
    requires Complete(w)
    ensures Complete(Scale(w, c))
    ensures Sum(Scale(w, c)) == Sum(w) * c
  {
  }

  // ---------------------------------------------------------------------
  // Renormalisation cancels the mismatch reduction
  // ---------------------------------------------------------------------

  /** Renormalising a table scaled by a positive constant gives what
      renormalising the table itself gives. */
  lemma RenormalizeScaleInvariant(w: map<Factor, real>, c: real)
    requires Complete(w) && forall f: Factor :: w[f] >= 0.0
    requires c > 0.0
    ensures forall f: Factor :: Scale(w, c)[f] >= 0.0
    ensures Renormalize(Scale(w, c)) == Renormalize(w)
  {
    var v := Scale(w, c);
    forall f: Factor ensures v[f] >= 0.0 {
      MulNonNegative(w[f], c);
    }
    if Sum(w) > 0.0 {
      RenormalizePositiveScale(w, c);
    } else {
      assert v == w;
    }
  }

  lemma RenormalizePositiveScale(w: map<Factor, real>, c: real)
    requires Complete(w) && forall f: Factor :: w[f] >= 0.0
    requires c > 0.0 && Sum(w) > 0.0
    requires forall f: Factor :: Scale(w, c)[f] >= 0.0
    ensures Renormalize(Scale(w, c)) == Renormalize(w)
  {
    var v, s := Scale(w, c), Sum(w);
    SumScale(w, c);
    MulPositive(s, c);
    assert Sum(v) == s * c;
    var d := 1.0 / (s * c);
    CancelScale(1.0, c, s);
    assert c * d == 1.0 / s;
    ScaleTwice(w, c, d);
    calc {
      Renormalize(v);
      Scale(v, d);
      Scale(w, c * d);
      Scale(w, 1.0 / s);
      Renormalize(w);
    }
  }

  /** Scaling twice is scaling by the product. */
  lemma ScaleTwice(w: map<Factor, real>, c: real, d: real)
    ensures Scale(Scale(w, c), d) == Scale(w, c * d)
  {
    var l, r := Scale(Scale(w, c), d), Scale(w, c * d);
    forall f | f in w ensures l[f] == r[f] {
      assert (w[f] * c) * d == w[f] * (c * d);
    }
  }

  /** The ×0.5 reduction never shows in the result: the weights are those of
      renormalising the de-rated base weights directly. */
  lemma MismatchCancels(data: FactorScores)
    ensures FuzzyWeights(data) == Renormalize(RawWeights(data))
  {
    var raw := RawWeights(data);
    var reduced := ReduceOnMismatch(data, DataKeys, raw);
    if reduced != raw {
      RenormalizeScaleInvariant(raw, MismatchThresholds.weightReduction);
    }
  }

  /** The reduction happens exactly when a scanned key is below 0.7. */
  lemma {:induction false} ReductionCondition(data: FactorScores, keys: seq<DataKey>, w: map<Factor, real>)
    requires forall k: DataKey :: k in keys
    ensures WeightMismatch(data) ==> ReduceOnMismatch(data, keys, w) == Scale(w, MismatchThresholds.weightReduction)
    ensures !WeightMismatch(data) ==> ReduceOnMismatch(data, keys, w) == w
  {
    if WeightMismatch(data) {
      var k: DataKey :| IsScanned(k) && data.Get(k) < MismatchThresholds.significant;
      assert k in keys;
      var i :| 0 <= i < |keys| && keys[i] == k;
    } else {
      forall i | 0 <= i < |keys| && IsScanned(keys[i])
        ensures data.Get(keys[i]) >= MismatchThresholds.significant
      {
        var k := keys[i];
        assert !(IsScanned(k) && data.Get(k) < MismatchThresholds.significant);
      }
    }
  }

  /** In particular for the keys of the factor record, in their order. */
  lemma ReductionOfFactorRecord(data: FactorScores, w: map<Factor, real>)
    ensures WeightMismatch(data) ==> ReduceOnMismatch(data, DataKeys, w) == Scale(w, MismatchThresholds.weightReduction)
    ensures !WeightMismatch(data) ==> ReduceOnMismatch(data, DataKeys, w) == w
  {
    DataKeysListsEveryKey();
    ReductionCondition(data, DataKeys, w);
  }

  lemma DataKeysListsEveryKey()
    ensures forall k: DataKey :: k in DataKeys
  {
    forall k: DataKey ensures k in DataKeys {
      match k
      case NameSimilarityKey => assert DataKeys[0] == k;
      case WebsiteSimilarityKey => assert DataKeys[1] == k;
      case ContactCompletenessKey => assert DataKeys[2] == k;
      case LocationCompletenessKey => assert DataKeys[3] == k;
      case OperationalCompletenessKey => assert DataKeys[4] == k;
      case ReviewScoreKey => assert DataKeys[5] == k;
      case ProfileCompletenessKey => assert DataKeys[6] == k;
      case EmirateConfidenceKey => assert DataKeys[7] == k;
    }
  }

  // ---------------------------------------------------------------------
  // Aggregation and classification
  // ---------------------------------------------------------------------

  datatype Level = High | Moderate | Low | VeryLow {
    /** The level string of the report. */
    function Name(): string {
      match this
      case High => "High"
      case Moderate => "Moderate"
      case Low => "Low"
      case VeryLow => "Very Low"
    }

    /** Higher is more legitimate. */
    function Rank(): nat {
      match this
      case High => 3
      case Moderate => 2
      case Low => 1
      case VeryLow => 0
    }
  }

  /** The pair `calculate_fuzzy_score` returns: the score in percent and the level. */
  datatype Assessment = Assessment(totalScore: real, level: Level)

  /** The second scan: any of the eight factor scores below the threshold.
      It agrees with the `for ... break` loop over the scores in order. */
  predicate SignificantMismatch(data: FactorScores)
    ensures SignificantMismatch(data) <==> ScanBelow(data, Factors)
  {
    ScanCoversFactors(data);
    exists f: Factor :: Score(data, f) < MismatchThresholds.significant
  }

  /** Scanning the listed factors finds a low score exactly when some factor has one. */
  lemma ScanCoversFactors(data: FactorScores)
    ensures (exists f: Factor :: Score(data, f) < MismatchThresholds.significant) <==> ScanBelow(data, Factors)
  {
    FactorsListsEveryFactorOnce();
    if f: Factor :| Score(data, f) < MismatchThresholds.significant {
      assert f in Factors;
      var i :| 0 <= i < |Factors| && Factors[i] == f;
      assert Score(data, Factors[i]) < MismatchThresholds.significant;
    }
  }

  /** The loop `for factor, score in scores.items(): if score < 0.7: ... break`
      over the factors `fs`, in order: whether it stops early. */
  function ScanBelow(data: FactorScores, fs: seq<Factor>): (found: bool)
    ensures found <==> exists i :: 0 <= i < |fs| && Score(data, fs[i]) < MismatchThresholds.significant
  {
    if |fs| == 0 then false
    else if Score(data, fs[0]) < MismatchThresholds.significant then true
    else
      var rest := ScanBelow(data, fs[1..]);
      assert rest <==> exists i :: 1 <= i < |fs| && Score(data, fs[i]) < MismatchThresholds.significant by {
        forall i | 1 <= i < |fs| ensures fs[1..][i - 1] == fs[i] { }
      }
      rest
  }

  /** Each factor's term of the aggregate: its score times its weight. */
  function Contributions(data: FactorScores, w: map<Factor, real>): (r: map<Factor, real>)
    requires Complete(w)
    ensures Complete(r) && r.Keys == w.Keys
    ensures forall f: Factor :: r[f] == Score(data, f) * w[f]
  {
    var r := map f | f in w :: Score(data, f) * w[f];
    assert forall f: Factor :: r[f] == Score(data, f) * w[f];
    r
  }

  /** `sum(scores[k] * weights[k] for k in scores)`. */
  /** `sum(scores[k] * weights[k] for k in scores)`: the running total of
      score times weight over the eight factors in order. */
  function WeightedSum(data: FactorScores, w: map<Factor, real>): (r: real)
    requires Complete(w)
    ensures r == ProductSum(data, w, Factors)
  {
    ProductSumOfFactors(data, w);
    Sum(Contributions(data, w))
  }

  /** The generator over the eight factors adds the same eight products as `Sum`. */
  lemma ProductSumOfFactors(data: FactorScores, w: map<Factor, real>)
    requires Complete(w)
    ensures ProductSum(data, w, Factors) == Sum(Contributions(data, w))
  {
    ProductSumAlong(data, w, Factors);
    SumAlongFactors(Contributions(data, w));
  }

  /** The entries of `c` at the factors `fs`, added one at a time. */
  function SumAlong(c: map<Factor, real>, fs: seq<Factor>): real
    requires Complete(c)
  {
    if |fs| == 0 then 0.0 else c[fs[0]] + SumAlong(c, fs[1..])
  }

  lemma {:induction false} ProductSumAlong(data: FactorScores, w: map<Factor, real>, fs: seq<Factor>)
    requires Complete(w)
    ensures ProductSum(data, w, fs) == SumAlong(Contributions(data, w), fs)
  {
    if |fs| > 0 {
      ProductSumAlong(data, w, fs[1..]);
    }
  }

  /** Adding along the eight listed factors gives the table's total. */
  lemma SumAlongFactors(c: map<Factor, real>)
    requires Complete(c)
    ensures SumAlong(c, Factors) == Sum(c)
  {
    var f7 := [EmirateMatch];
    var f6 := [Completeness] + f7;
    var f5 := [Reviews] + f6;
    var f4 := [Operational] + f5;
    var f3 := [Location] + f4;
    var f2 := [ContactInfo] + f3;
    var f1 := [WebsiteMatch] + f2;
    assert Factors == [NameMatch] + f1;
    assert f7[1..] == [] && f6[1..] == f7 && f5[1..] == f6 && f4[1..] == f5;
    assert f3[1..] == f4 && f2[1..] == f3 && f1[1..] == f2 && Factors[1..] == f1;
    assert SumAlong(c, f7) == c[EmirateMatch];
    assert SumAlong(c, f5) == c[Reviews] + c[Completeness] + c[EmirateMatch];
    assert SumAlong(c, f3) == c[Location] + c[Operational] + SumAlong(c, f5);
    assert SumAlong(c, f1) == c[WebsiteMatch] + c[ContactInfo] + SumAlong(c, f3);
  }

  /** The generator sum over the factors `fs`, one product at a time. */
  function ProductSum(data: FactorScores, w: map<Factor, real>, fs: seq<Factor>): real
    requires Complete(w)
  {
    if |fs| == 0 then 0.0 else Score(data, fs[0]) * w[fs[0]] + ProductSum(data, w, fs[1..])
  }

  /** The if-chain of `calculate_fuzzy_score` on the (penalised) total. */
  function Classify(total: real, mismatch: bool): (level: Level)
    ensures level == High ==> !mismatch
    ensures !mismatch ==> (level == High <==> total >= LegitimacyThresholds.high)
    ensures level.Rank() >= 2 <==> total >= LegitimacyThresholds.moderate
    ensures level.Rank() >= 1 <==> total >= LegitimacyThresholds.low
  {
    if total >= LegitimacyThresholds.high && !mismatch then High
    else if total >= LegitimacyThresholds.moderate then Moderate
    else if total >= LegitimacyThresholds.low then Low
    else VeryLow
  }

  /** A higher total never gets a lower level, and a mismatch never raises it. */
  lemma ClassifyMonotone(t1: real, t2: real, m1: bool, m2: bool)
    requires t1 <= t2
    requires m2 ==> m1
    ensures Classify(t1, m1).Rank() <= Classify(t2, m2).Rank()
  {
  }

  /** `calculate_fuzzy_score(data)`. */
  function FuzzyScore(data: FactorScores): (a: Assessment)
    ensures a.level == High ==> !SignificantMismatch(data) && a.totalScore >= 80.0
    ensures a.level.Rank() >= 2 <==> a.totalScore >= 60.0
    ensures a.level.Rank() >= 1 <==> a.totalScore >= 40.0
  {
    var weights := FuzzyWeights(data);
    var mismatch := SignificantMismatch(data);
    var total := WeightedSum(data, weights);
    var penalised := if mismatch then total * MismatchThresholds.scoreReduction else total;
    Assessment(penalised * 100.0, Classify(penalised, mismatch))
  }

  /** High exactly when the score reaches 80 and no factor is below 0.7. */
  lemma HighIff(data: FactorScores)
    ensures FuzzyScore(data).level == High <==> FuzzyScore(data).totalScore >= 80.0 && !SignificantMismatch(data)
  {
  }

  /** The weight scan looks at fewer keys than the score scan: a weak review
      score or emirate confidence alone penalises the score but leaves the
      weights unreduced. */
  lemma MismatchScansDiffer(data: FactorScores)
    ensures WeightMismatch(data) ==> SignificantMismatch(data)
    ensures var d := FactorScores(1.0, 1.0, 1.0, 1.0, 1.0, 0.5, 1.0, 1.0);
      SignificantMismatch(d) && !WeightMismatch(d)
  {
    if WeightMismatch(data) {
      var k: DataKey :| IsScanned(k) && data.Get(k) < MismatchThresholds.significant;
      assert Score(data, FactorOf(k)) < MismatchThresholds.significant;
    }
    var d := FactorScores(1.0, 1.0, 1.0, 1.0, 1.0, 0.5, 1.0, 1.0);
    assert Score(d, Reviews) < MismatchThresholds.significant;
    assert forall k: DataKey | IsScanned(k) :: d.Get(k) >= MismatchThresholds.significant;
  }

  // ---------------------------------------------------------------------
  // Bounds of the aggregate
  // ---------------------------------------------------------------------

  /** With scores in [0, 1] and non-negative weights, the weighted sum lies
      between 0 and the total weight. */
  lemma WeightedSumBounds(data: FactorScores, w: map<Factor, real>)
    requires Complete(w) && forall f: Factor :: w[f] >= 0.0
    requires data.InUnitRange()
    ensures 0.0 <= WeightedSum(data, w) <= Sum(w)
  {
    var c := Contributions(data, w);
    forall f: Factor ensures 0.0 <= c[f] <= w[f] {
      ContributionBounds(data, w, f);
    }
    SumMonotone(c, w);
  }

  lemma ContributionBounds(data: FactorScores, w: map<Factor, real>, f: Factor)
    requires Complete(w) && w[f] >= 0.0
    requires 0.0 <= Score(data, f) <= 1.0
    ensures 0.0 <= Contributions(data, w)[f] <= w[f]
  {
    ProductWithinWeight(Contributions(data, w), w, f, Score(data, f));
  }

  /** An entry that is its weight times a number in [0, 1] lies between 0
      and the weight. */
  lemma ProductWithinWeight(c: map<Factor, real>, w: map<Factor, real>, f: Factor, x: real)
    requires f in c && f in w && c[f] == x * w[f]
    requires 0.0 <= x <= 1.0 && w[f] >= 0.0
    ensures 0.0 <= c[f] <= w[f]
  {
    ProductWithinUnit(c[f], x, w[f]);
  }

  /** With every score at least `lo` and non-negative weights, the weighted
      sum is at least `lo` times the total weight. */
  lemma WeightedSumAtLeast(data: FactorScores, w: map<Factor, real>, lo: real)
    requires Complete(w) && forall f: Factor :: w[f] >= 0.0 && Score(data, f) >= lo
    ensures WeightedSum(data, w) >= lo * Sum(w)
  {
    var floor, c := Scale(w, lo), Contributions(data, w);
    forall f: Factor ensures floor[f] <= c[f] {
      ContributionAtLeast(data, w, f, lo);
    }
    SumScale(w, lo);
    SumMonotone(floor, c);
  }

  lemma ContributionAtLeast(data: FactorScores, w: map<Factor, real>, f: Factor, lo: real)
    requires Complete(w) && w[f] >= 0.0 && Score(data, f) >= lo
    ensures Scale(w, lo)[f] <= Contributions(data, w)[f]
  {
    EntryAtLeast(Scale(w, lo), Contributions(data, w), w, f, lo, Score(data, f));
  }

  /** One entry of a product map against the same entry scaled by a lower bound. */
  lemma EntryAtLeast(floor: map<Factor, real>, c: map<Factor, real>, w: map<Factor, real>, f: Factor, lo: real, x: real)
    requires f in w && f in floor && f in c && w[f] >= 0.0 && lo <= x
    requires floor[f] == w[f] * lo && c[f] == x * w[f]
    ensures floor[f] <= c[f]
  {
    ProductsOrdered(floor[f], c[f], lo, x, w[f]);
  }

  /** With every factor score in [0, 1] the score is a percentage, and under a
      mismatch it is at most 70. */
  lemma ScoreBounds(data: FactorScores)
    requires data.InUnitRange()
    ensures 0.0 <= FuzzyScore(data).totalScore <= 100.0
    ensures SignificantMismatch(data) ==> FuzzyScore(data).totalScore <= 70.0
    ensures SignificantMismatch(data) ==> FuzzyScore(data).level != High
  {
    WeightedSumBounds(data, FuzzyWeights(data));
  }

  /** The weights sum to 1 as soon as one factor scores above 0; with no
      factor above 0 every weight is 0. */
  lemma WeightsTotal(data: FactorScores)
    ensures (exists f: Factor :: Score(data, f) > 0.0) ==> Sum(FuzzyWeights(data)) == 1.0
    ensures (forall f: Factor :: Score(data, f) <= 0.0) ==> forall f: Factor :: FuzzyWeights(data)[f] == 0.0
  {
    if exists f: Factor :: Score(data, f) > 0.0 {
      var raw := RawWeights(data);
      var f: Factor :| Score(data, f) > 0.0;
      assert raw[f] != 0.0;
    }
  }

  /** With every factor score positive, every weight is positive and the
      weights sum to 1. */
  lemma PositiveScoresWeights(data: FactorScores)
    requires forall f: Factor :: Score(data, f) > 0.0
    ensures forall f: Factor :: FuzzyWeights(data)[f] > 0.0
    ensures Sum(FuzzyWeights(data)) == 1.0
  {
    var raw := RawWeights(data);
    assert raw[NameMatch] > 0.0;
  }

  /** With every factor at least `lo` >= 0.7 there is no mismatch and the
      score is at least `lo` in percent. */
  lemma StrongFactorsScore(data: FactorScores, lo: real)
    requires lo >= MismatchThresholds.significant
    requires forall f: Factor :: Score(data, f) >= lo
    ensures !SignificantMismatch(data)
    ensures FuzzyScore(data).totalScore >= lo * 100.0
  {
    assert !SignificantMismatch(data);
    StrongWeightedSum(data, lo);
    UnpenalisedScore(data);
  }

  /** With every factor at least `lo` > 0, the weighted sum is at least `lo`:
      every weight is positive and the weights sum to 1. */
  lemma StrongWeightedSum(data: FactorScores, lo: real)
    requires lo > 0.0
    requires forall f: Factor :: Score(data, f) >= lo
    ensures WeightedSum(data, FuzzyWeights(data)) >= lo
  {
    PositiveScoresWeights(data);
    NormalisedSumAtLeast(data, FuzzyWeights(data), lo);
  }

  /** Weights that sum to 1 give a weighted sum at least the smallest score. */
  lemma NormalisedSumAtLeast(data: FactorScores, w: map<Factor, real>, lo: real)
    requires Complete(w) && Sum(w) == 1.0
    requires forall f: Factor :: w[f] >= 0.0 && Score(data, f) >= lo
    ensures WeightedSum(data, w) >= lo
  {
    WeightedSumAtLeast(data, w, lo);
  }

  /** Without a mismatch the score is the weighted sum in percent. */
  lemma UnpenalisedScore(data: FactorScores)
    requires !SignificantMismatch(data)
    ensures FuzzyScore(data).totalScore == WeightedSum(data, FuzzyWeights(data)) * 100.0
  {
  }

  /** Under a mismatch the score is the weighted sum cut to 70%, in percent. */
  lemma PenalisedScore(data: FactorScores)
    requires SignificantMismatch(data)
    ensures FuzzyScore(data).totalScore == WeightedSum(data, FuzzyWeights(data)) * 0.7 * 100.0
  {
  }

  /** No factor below 0.7 means High or Moderate, never lower. */
  lemma NoMismatchIsHighOrModerate(data: FactorScores)
    requires !SignificantMismatch(data)
    ensures FuzzyScore(data).totalScore >= 70.0
    ensures FuzzyScore(data).level == High || FuzzyScore(data).level == Moderate
  {
    StrongFactorsScore(data, MismatchThresholds.significant);
  }

  /** Every factor at 0.8 or more means High. */
  lemma HighWhenAllFactorsStrong(data: FactorScores)
    requires forall f: Factor :: Score(data, f) >= LegitimacyThresholds.high
    ensures FuzzyScore(data).level == High
  {
    StrongFactorsScore(data, LegitimacyThresholds.high);
  }
}

=== FILE: legitimacy.dfy ===
/**
 The factor extractor of `calculate_business_legitimacy`: it turns one place
 record and the name that was searched for into the eight factor scores,
 hands them to the fuzzy engine, and reports the score, the level, the
 factor scores and the weights in percent.
 */
module Legitimacy {
  import opened Text
  import opened FuzzyConfig
  import opened FuzzyLogic
  import opened Similarity
  import opened Normalizer
  import opened WeightsConfig
  import opened RealArith

  // ---------------------------------------------------------------------
  // The place record
  // ---------------------------------------------------------------------

  /** `result['emirate_validation']`: absent (or an empty dictionary), or the
      validator's verdict with its confidence string. */
  datatype EmirateValidation =
    | NoValidation
    | Validation(isValid: bool, confidence: string)

  /** The fields of a place record the extractor reads. A missing or falsy
      string is "", a missing or zero rating is 0, a missing review count is
      0, and the opening hours and the map location are present or not. */
  datatype PlaceRecord = PlaceRecord(
    name: string,
    formattedAddress: string,
    formattedPhoneNumber: string,
    website: string,
    hasOpeningHours: bool,
    rating: real,
    userRatingsTotal: int,
    businessStatus: string,
    hasMapLocation: bool,
    emirateValidation: EmirateValidation)

  /** `bool(result.get(field))` for the record fields that have a name. */
  predicate Present(r: PlaceRecord, field: string) {
    if field == "name" then r.name != ""
    else if field == "formatted_address" then r.formattedAddress != ""
    else if field == "formatted_phone_number" then r.formattedPhoneNumber != ""
    else if field == "website" then r.website != ""
    else if field == "current_opening_hours" then r.hasOpeningHours
    else if field == "rating" then r.rating != 0.0
    else if field == "user_ratings_total" then r.userRatingsTotal != 0
    else false
  }

  /** The website is set and starts with "http". */
  predicate LinksWebsite(r: PlaceRecord) {
    r.website != "" && StartsWith(r.website, "http")
  }

  // ---------------------------------------------------------------------
  // The factor scores
  // ---------------------------------------------------------------------

  /** Two presence tests worth 0.5 each, as in the contact, location and
      operational factors. */
  function PairScore(first: bool, second: bool): (s: real)
    ensures s == 0.0 <==> !first && !second
    ensures s == 0.5 <==> first != second
    ensures s == 1.0 <==> first && second
  {
    (if first then 0.5 else 0.0) + (if second then 0.5 else 0.0)
  }

  /** `website_similarity`: the domain blend in [0, 1] when the website is an
      http(s) link whose domain can be extracted, and 0 otherwise. */
  function WebsiteSimilarity(lib: Library, r: PlaceRecord, query: string): (s: real)
    ensures !LinksWebsite(r) || lib.extractDomain(r.website) == "" ==> s == 0.0
    ensures LinksWebsite(r) && lib.extractDomain(r.website) != "" ==>
      s * 100.0 == DomainSimilarity(lib, query, lib.extractDomain(r.website))
    ensures lib.Valid() ==> 0.0 <= s <= 1.0
  {
    if LinksWebsite(r) then
      var domain := lib.extractDomain(r.website);
      if domain != "" then DomainSimilarity(lib, query, domain) / 100.0 else 0.0
    else
      0.0
  }

  /** The step on the number of reviews: more reviews, a larger bonus, from
      0.05 up to 0.3 at 100 reviews or more. */
  function ReviewCountComponent(count: int): (c: real)
    ensures 0.05 <= c <= 0.3
    ensures c == 0.3 <==> count >= 100
    ensures c == 0.05 <==> count < 10
    ensures 50 <= count < 100 ==> c == 0.2
    ensures 25 <= count < 50 ==> c == 0.15
    ensures 10 <= count < 25 ==> c == 0.1
  {
    if count >= 100 then 0.3
    else if count >= 50 then 0.2
    else if count >= 25 then 0.15
    else if count >= 10 then 0.1
    else 0.05
  }

  /** `review_score`: 0 without a (non-zero) rating or without reviews;
      otherwise 0.7 of the rating out of 5 plus the review-count step. */
  function ReviewScore(rating: real, count: int): (s: real)
    ensures rating == 0.0 || count <= 0 ==> s == 0.0
    ensures rating != 0.0 && count > 0 ==> s == rating / 5.0 * 0.7 + ReviewCountComponent(count)
    ensures 0.0 < rating <= 5.0 && count > 0 ==> 0.05 < s <= 1.0
    ensures 0.0 <= rating <= 5.0 ==> 0.0 <= s <= 1.0
  {
    if rating != 0.0 && count > 0 then
      rating / 5.0 * 0.7 + ReviewCountComponent(count)
    else
      0.0
  }

  /** How many of `fields` the record holds. */
  function PresentCount(r: PlaceRecord, fields: seq<string>): (n: nat)
    ensures n <= |fields|
  {
    if fields == [] then 0 else Bit(Present(r, fields[0])) + PresentCount(r, fields[1..])
  }

  function Bit(b: bool): nat {
    if b then 1 else 0
  }

  /** `present_fields / len(REQUIRED_FIELDS)`. */
  function ProfileCompleteness(r: PlaceRecord): (p: real)
    ensures 0.0 <= p <= 1.0
    ensures p * 7.0 == PresentCount(r, RequiredFields) as real
  {
    PresentCount(r, RequiredFields) as real / |RequiredFields| as real
  }

  /** `emirate_confidence`: 1 for a valid emirate, else 0.5 when the validator
      is confident ("high"), else 0. */
  function EmirateConfidence(v: EmirateValidation): (c: real)
    ensures c == 1.0 <==> v.Validation? && v.isValid
    ensures c == 0.5 <==> v.Validation? && !v.isValid && v.confidence == "high"
    ensures c == 0.0 <==> v.NoValidation? || (!v.isValid && v.confidence != "high")
  {
    match v
    case NoValidation => 0.0
    case Validation(isValid, confidence) =>
      if isValid then 1.0 else if confidence == "high" then 0.5 else 0.0
  }

  /** The `data` dictionary built from a record and the searched name. */
  function ExtractFactors(lib: Library, r: PlaceRecord, query: string): (d: FactorScores)
    ensures d.nameSimilarity == NameSimilarity(lib, query, r.name, DefaultPrimaryWeight, DefaultSecondaryWeight)
    ensures d.websiteSimilarity == WebsiteSimilarity(lib, r, query)
    ensures d.contactCompleteness in {0.0, 0.5, 1.0}
    ensures d.contactCompleteness == 1.0 <==> r.formattedPhoneNumber != "" && LinksWebsite(r)
    ensures d.contactCompleteness == 0.0 <==> r.formattedPhoneNumber == "" && !LinksWebsite(r)
    ensures d.locationCompleteness in {0.0, 0.5, 1.0}
    ensures d.locationCompleteness == 1.0 <==> r.formattedAddress != "" && r.hasMapLocation
    ensures d.locationCompleteness == 0.0 <==> r.formattedAddress == "" && !r.hasMapLocation
    ensures d.operationalCompleteness in {0.0, 0.5, 1.0}
    ensures d.operationalCompleteness == 1.0 <==> r.hasOpeningHours && r.businessStatus == "OPERATIONAL"
    ensures d.operationalCompleteness == 0.0 <==> !r.hasOpeningHours && r.businessStatus != "OPERATIONAL"
    ensures d.reviewScore == ReviewScore(r.rating, r.userRatingsTotal)
    ensures d.profileCompleteness == ProfileCompleteness(r)
    ensures d.profileCompleteness * 7.0 == PresentCount(r, RequiredFields) as real
    ensures d.emirateConfidence == EmirateConfidence(r.emirateValidation)
  {
    FactorScores(
      NameSimilarity(lib, query, r.name, DefaultPrimaryWeight, DefaultSecondaryWeight),
      WebsiteSimilarity(lib, r, query),
      PairScore(r.formattedPhoneNumber != "", LinksWebsite(r)),
      PairScore(r.formattedAddress != "", r.hasMapLocation),
      PairScore(r.hasOpeningHours, r.businessStatus == "OPERATIONAL"),
      ReviewScore(r.rating, r.userRatingsTotal),
      ProfileCompleteness(r),
      EmirateConfidence(r.emirateValidation))
  }

  // ---------------------------------------------------------------------
  // Facts about the factors
  // ---------------------------------------------------------------------

  /** More reviews never lower the count step. */
  lemma ReviewCountMonotone(c1: int, c2: int)
    requires c1 <= c2
    ensures ReviewCountComponent(c1) <= ReviewCountComponent(c2)
  {
  }

  /** A better rating or more reviews never lower the review score, once
      there is a rating and a review. */
  lemma ReviewScoreMonotone(r1: real, r2: real, c1: int, c2: int)
    requires 0.0 < r1 <= r2 && 0 < c1 <= c2
    ensures ReviewScore(r1, c1) <= ReviewScore(r2, c2)
  {
    ReviewCountMonotone(c1, c2);
    assert r1 / 5.0 * 0.7 <= r2 / 5.0 * 0.7;
  }

  /** The seven required fields, checked against the record's own fields. */
  predicate AllRequiredPresent(r: PlaceRecord) {
    && r.name != "" && r.formattedAddress != "" && r.formattedPhoneNumber != ""
    && r.website != "" && r.hasOpeningHours && r.rating != 0.0 && r.userRatingsTotal != 0
  }

  predicate NoRequiredPresent(r: PlaceRecord) {
    && r.name == "" && r.formattedAddress == "" && r.formattedPhoneNumber == ""
    && r.website == "" && !r.hasOpeningHours && r.rating == 0.0 && r.userRatingsTotal == 0
  }

  /** The count of present required fields is one per field of the record
      that is set. */
  lemma RequiredFieldsCount(r: PlaceRecord)
    ensures PresentCount(r, RequiredFields)
      == Bit(r.name != "") + Bit(r.formattedAddress != "") + Bit(r.formattedPhoneNumber != "")
       + Bit(r.website != "") + Bit(r.hasOpeningHours) + Bit(r.rating != 0.0) + Bit(r.userRatingsTotal != 0)
  {
    PresentCountOfSeven(r, RequiredFields);
    RequiredFieldsRead(r);
  }

  /** Each required field name reads the record field of that name. */
  lemma RequiredFieldsRead(r: PlaceRecord)
    ensures |RequiredFields| == 7
    ensures Present(r, RequiredFields[0]) == (r.name != "")
    ensures Present(r, RequiredFields[1]) == (r.formattedAddress != "")
    ensures Present(r, RequiredFields[2]) == (r.formattedPhoneNumber != "")
    ensures Present(r, RequiredFields[3]) == (r.website != "")
    ensures Present(r, RequiredFields[4]) == r.hasOpeningHours
    ensures Present(r, RequiredFields[5]) == (r.rating != 0.0)
    ensures Present(r, RequiredFields[6]) == (r.userRatingsTotal != 0)
  {
  }

  lemma PresentCountOfSeven(r: PlaceRecord, fs: seq<string>)
    requires |fs| == 7
    ensures PresentCount(r, fs)
      == Bit(Present(r, fs[0])) + Bit(Present(r, fs[1])) + Bit(Present(r, fs[2])) + Bit(Present(r, fs[3]))
       + Bit(Present(r, fs[4])) + Bit(Present(r, fs[5])) + Bit(Present(r, fs[6]))
  {
    var f1, f2, f3, f4, f5, f6 := fs[1..], fs[2..], fs[3..], fs[4..], fs[5..], fs[6..];
    assert f1 == fs[1..] && f2 == f1[1..] && f3 == f2[1..] && f4 == f3[1..] && f5 == f4[1..] && f6 == f5[1..];
    assert f6[1..] == [];
    assert PresentCount(r, f6) == Bit(Present(r, fs[6]));
    assert PresentCount(r, f5) == Bit(Present(r, fs[5])) + PresentCount(r, f6);
    assert PresentCount(r, f4) == Bit(Present(r, fs[4])) + PresentCount(r, f5);
    assert PresentCount(r, f3) == Bit(Present(r, fs[3])) + PresentCount(r, f4);
    assert PresentCount(r, f2) == Bit(Present(r, fs[2])) + PresentCount(r, f3);
    assert PresentCount(r, f1) == Bit(Present(r, fs[1])) + PresentCount(r, f2);
  }

  /** Profile completeness is 1 exactly when all seven fields are set, 0
      exactly when none is, and a whole number of sevenths in between. */
  lemma ProfileCompletenessExtremes(r: PlaceRecord)
    ensures ProfileCompleteness(r) == 1.0 <==> AllRequiredPresent(r)
    ensures ProfileCompleteness(r) == 0.0 <==> NoRequiredPresent(r)
  {
    RequiredFieldsCount(r);
  }

  /** With a valid library and a rating on Google's 0-5 scale, every factor
      score lies in [0, 1]. */
  lemma FactorsInUnitRange(lib: Library, r: PlaceRecord, query: string)
    requires lib.Valid()
    requires 0.0 <= r.rating <= 5.0
    ensures ExtractFactors(lib, r, query).InUnitRange()
  {
    var d := ExtractFactors(lib, r, query);
    assert 0.0 <= d.nameSimilarity <= 1.0 by {
      assert 0.0 <= d.nameSimilarity <= DefaultPrimaryWeight + DefaultSecondaryWeight;
    }
    assert 0.0 <= d.websiteSimilarity <= 1.0;
    assert 0.0 <= d.reviewScore <= 1.0;
    assert 0.0 <= d.profileCompleteness <= 1.0;
    UnitRangeOfFields(d);
  }

  lemma UnitRangeOfFields(d: FactorScores)
    requires 0.0 <= d.nameSimilarity <= 1.0 && 0.0 <= d.websiteSimilarity <= 1.0
    requires d.contactCompleteness in {0.0, 0.5, 1.0} && d.locationCompleteness in {0.0, 0.5, 1.0}
    requires d.operationalCompleteness in {0.0, 0.5, 1.0} && 0.0 <= d.reviewScore <= 1.0
    requires 0.0 <= d.profileCompleteness <= 1.0 && d.emirateConfidence in {0.0, 0.5, 1.0}
    ensures d.InUnitRange()
  {
    forall k: DataKey ensures 0.0 <= d.Get(k) <= 1.0 {
      match k
      case NameSimilarityKey =>
      case WebsiteSimilarityKey =>
      case ContactCompletenessKey =>
      case LocationCompletenessKey =>
      case OperationalCompletenessKey =>
      case ReviewScoreKey =>
      case ProfileCompletenessKey =>
      case EmirateConfidenceKey =>
    }
  }

  // ---------------------------------------------------------------------
  // The report
  // ---------------------------------------------------------------------

  /** The dictionary `calculate_business_legitimacy` returns, unrounded: the
      score in percent, the level, each factor score in percent and each
      fuzzy weight in percent. */
  datatype Report = Report(totalScore: real, level: Level, breakdown: map<DataKey, real>, weights: map<Factor, real>)

  /** `{factor: data[factor] * 100 for factor in data}`. */
  function Breakdown(data: FactorScores): (b: map<DataKey, real>)
    ensures forall k: DataKey :: k in b && b[k] == data.Get(k) * 100.0
  {
    DataKeysListsEveryKey();
    map k | k in DataKeys :: data.Get(k) * 100.0
  }

  /** `{factor: weight * 100 for factor, weight in weights.items()}` of a
      table without negative weights: nothing turns negative, and what was 0
      stays the only 0. */
  function Percent(w: map<Factor, real>): (p: map<Factor, real>)
    requires Complete(w) && forall f: Factor :: w[f] >= 0.0
    ensures Complete(p) && forall f: Factor :: p[f] >= 0.0 && (p[f] == 0.0 <==> w[f] == 0.0)
    ensures forall f: Factor :: p[f] == w[f] * 100.0
    ensures Sum(p) == Sum(w) * 100.0
  {
    var p := Scale(w, 100.0);
    forall f: Factor ensures p[f] >= 0.0 && (p[f] == 0.0 <==> w[f] == 0.0) {
      ZeroPattern(w[f], 100.0);
    }
    SumScale(w, 100.0);
    p
  }

  /** The report of a factor record: the fuzzy score and level, each factor
      in percent, each fuzzy weight in percent. */
  function ReportOf(data: FactorScores): (rep: Report)
    ensures forall k: DataKey :: k in rep.breakdown && rep.breakdown[k] == data.Get(k) * 100.0
    ensures Complete(rep.weights) && forall f: Factor :: rep.weights[f] >= 0.0
    ensures forall f: Factor :: rep.weights[f] == FuzzyWeights(data)[f] * 100.0
    ensures forall f: Factor :: rep.weights[f] == 0.0 <==> Score(data, f) <= 0.0
    ensures rep.totalScore == FuzzyScore(data).totalScore && rep.level == FuzzyScore(data).level
    ensures rep.level == High <==> rep.totalScore >= 80.0 && !SignificantMismatch(data)
    ensures rep.level.Rank() >= 2 <==> rep.totalScore >= 60.0
    ensures rep.level.Rank() >= 1 <==> rep.totalScore >= 40.0
  {
    var a := FuzzyScore(data);
    HighIff(data);
    Report(a.totalScore, a.level, Breakdown(data), Percent(FuzzyWeights(data)))
  }

  /** `calculate_business_legitimacy(result, input_company_name)`. */
  function CalculateBusinessLegitimacy(lib: Library, r: PlaceRecord, query: string): (rep: Report)
    ensures forall k: DataKey :: k in rep.breakdown && rep.breakdown[k] == ExtractFactors(lib, r, query).Get(k) * 100.0
    ensures Complete(rep.weights)
    ensures forall f: Factor :: rep.weights[f] == FuzzyWeights(ExtractFactors(lib, r, query))[f] * 100.0
    ensures rep.totalScore == FuzzyScore(ExtractFactors(lib, r, query)).totalScore
    ensures rep.level == FuzzyScore(ExtractFactors(lib, r, query)).level
    ensures rep.level == High <==> rep.totalScore >= 80.0 && !SignificantMismatch(ExtractFactors(lib, r, query))
    ensures rep.level.Rank() >= 2 <==> rep.totalScore >= 60.0
    ensures rep.level.Rank() >= 1 <==> rep.totalScore >= 40.0
  {
    var data := ExtractFactors(lib, r, query);
    ReportOf(data)
  }

  /** With every factor in [0, 1] the score and every breakdown entry are
      percentages. */
  lemma ReportBounds(data: FactorScores)
    requires data.InUnitRange()
    ensures 0.0 <= ReportOf(data).totalScore <= 100.0
    ensures forall k: DataKey :: 0.0 <= ReportOf(data).breakdown[k] <= 100.0
  {
    ScoreBounds(data);
  }

  /** The reported weights add up to 100 as soon as one factor scores above
      0; with no factor above 0 they are all 0. */
  lemma ReportWeightsTotal(data: FactorScores)
    ensures (exists f: Factor :: Score(data, f) > 0.0) ==> Sum(ReportOf(data).weights) == 100.0
    ensures (forall f: Factor :: Score(data, f) <= 0.0) ==> forall f: Factor :: ReportOf(data).weights[f] == 0.0
  {
    WeightsTotal(data);
    PercentTotals(FuzzyWeights(data));
    assert ReportOf(data).weights == Percent(FuzzyWeights(data));
  }

  /** A table summing to 1 is 100 in percent, and one of zeros stays zeros. */
  lemma PercentTotals(w: map<Factor, real>)
    requires Complete(w) && forall f: Factor :: w[f] >= 0.0
    ensures Sum(w) == 1.0 ==> Sum(Percent(w)) == 100.0
    ensures (forall f: Factor :: w[f] == 0.0) ==> forall f: Factor :: Percent(w)[f] == 0.0
  {
  }

  /** For a record and a valid library with a rating on the 0-5 scale the
      score and every breakdown entry are percentages. */
  lemma RecordReportBounds(lib: Library, r: PlaceRecord, query: string)
    requires lib.Valid()
    requires 0.0 <= r.rating <= 5.0
    ensures 0.0 <= CalculateBusinessLegitimacy(lib, r, query).totalScore <= 100.0
    ensures forall k: DataKey :: 0.0 <= CalculateBusinessLegitimacy(lib, r, query).breakdown[k] <= 100.0
  {
    FactorsInUnitRange(lib, r, query);
    ReportBounds(ExtractFactors(lib, r, query));
  }

  /** A record with any one of the seven required fields set has weights
      that add up to 100: its profile completeness is above 0. */
  lemma RecordWeightsTotal(lib: Library, r: PlaceRecord, query: string)
    requires !NoRequiredPresent(r)
    ensures Sum(CalculateBusinessLegitimacy(lib, r, query).weights) == 100.0
  {
    var d := ExtractFactors(lib, r, query);
    var p := ProfileCompleteness(r);
    ProfileCompletenessExtremes(r);
    assert p != 0.0 && p >= 0.0;
    assert p > 0.0;
    assert d.profileCompleteness == p;
    CompletenessScore(d);
    ReportWeightsTotal(d);
    assert CalculateBusinessLegitimacy(lib, r, query) == ReportOf(d);
  }

  /** The field a factor reads, one lemma per factor so that each use
      brings in only the fact it needs. */
  lemma NameScore(d: FactorScores)
    ensures Score(d, NameMatch) == d.nameSimilarity
  {
  }

  lemma CompletenessScore(d: FactorScores)
    ensures Score(d, Completeness) == d.profileCompleteness
  {
  }

  lemma WebsiteScore(d: FactorScores)
    ensures Score(d, WebsiteMatch) == d.websiteSimilarity
  {
  }

  // ---------------------------------------------------------------------
  // A record that has nothing but a matching name
  // ---------------------------------------------------------------------

  /** A record with only its name set. */
  function NameOnly(name: string): PlaceRecord {
    PlaceRecord(name, "", "", "", false, 0.0, 0, "", false, NoValidation)
  }

  /** The factors of such a record searched under its own name: a perfect
      name match, one of seven profile fields, and nothing else. */
  lemma NameOnlyFactors(lib: Library, name: string)
    requires lib.Valid() && NormalizeName(name) != ""
    ensures ExtractFactors(lib, NameOnly(name), name) == FactorScores(1.0, 0.0, 0.0, 0.0, 0.0, 0.0, 1.0 / 7.0, 0.0)
  {
    var r := NameOnly(name);
    var d := ExtractFactors(lib, r, name);
    NameSimilaritySelf(lib, name, DefaultPrimaryWeight, DefaultSecondaryWeight);
    RequiredFieldsCount(r);
    assert d.nameSimilarity == 1.0;
    assert d.profileCompleteness == 1.0 / 7.0;
    assert !LinksWebsite(r);
    assert d.websiteSimilarity == 0.0;
    assert d.operationalCompleteness == 0.0;
  }

  /** The de-rated weights of those factors: 0.15 for the name, 1/63 for the
      profile (1/7 lies on the rising side of the triangle), 0 elsewhere. */
  lemma NameOnlyRawWeights(d: FactorScores)
    requires d == FactorScores(1.0, 0.0, 0.0, 0.0, 0.0, 0.0, 1.0 / 7.0, 0.0)
    ensures var raw := RawWeights(d);
      && raw[NameMatch] == 0.15 && raw[Completeness] == 1.0 / 63.0
      && raw[WebsiteMatch] == 0.0 && raw[ContactInfo] == 0.0 && raw[Location] == 0.0
      && raw[Operational] == 0.0 && raw[Reviews] == 0.0 && raw[EmirateMatch] == 0.0
  {
    NameOnlyRawPositive(d);
    NameOnlyZeroScores(d);
    NameOnlyRawZero(d);
  }

  /** The two factors that score something keep 1 and 10/63 of their base
      weights. */
  lemma NameOnlyRawPositive(d: FactorScores)
    requires d == FactorScores(1.0, 0.0, 0.0, 0.0, 0.0, 0.0, 1.0 / 7.0, 0.0)
    ensures RawWeights(d)[NameMatch] == 0.15 && RawWeights(d)[Completeness] == 1.0 / 63.0
  {
    var raw := RawWeights(d);
    TablesHaveSameKeys();
    NameScore(d);
    CompletenessScore(d);
    assert raw[NameMatch] == Derated(NameMatch, 1.0);
    assert raw[Completeness] == Derated(Completeness, 1.0 / 7.0);
    DeratedExamples();
  }

  /** The six factors that score nothing keep no weight. */
  lemma NameOnlyRawZero(d: FactorScores)
    requires Score(d, WebsiteMatch) == 0.0 && Score(d, ContactInfo) == 0.0 && Score(d, Location) == 0.0
    requires Score(d, Operational) == 0.0 && Score(d, Reviews) == 0.0 && Score(d, EmirateMatch) == 0.0
    ensures var raw := RawWeights(d);
      && raw[WebsiteMatch] == 0.0 && raw[ContactInfo] == 0.0 && raw[Location] == 0.0
      && raw[Operational] == 0.0 && raw[Reviews] == 0.0 && raw[EmirateMatch] == 0.0
  {
    RawZeroAt(d, WebsiteMatch);
    RawZeroAt(d, ContactInfo);
    RawZeroAt(d, Location);
    RawZeroAt(d, Operational);
    RawZeroAt(d, Reviews);
    RawZeroAt(d, EmirateMatch);
  }

  /** A factor that scores nothing keeps no weight. */
  lemma RawZeroAt(d: FactorScores, f: Factor)
    requires Score(d, f) <= 0.0
    ensures RawWeights(d)[f] == 0.0
  {
  }

  /** Which factors of the name-only record score nothing. */
  lemma NameOnlyZeroScores(d: FactorScores)
    requires d == FactorScores(1.0, 0.0, 0.0, 0.0, 0.0, 0.0, 1.0 / 7.0, 0.0)
    ensures Score(d, WebsiteMatch) == 0.0 && Score(d, ContactInfo) == 0.0 && Score(d, Location) == 0.0
    ensures Score(d, Operational) == 0.0 && Score(d, Reviews) == 0.0 && Score(d, EmirateMatch) == 0.0
  {
  }

  /** A full name match keeps the whole name weight; a profile at 1/7 keeps
      10/63 of the profile weight. */
  lemma DeratedExamples()
    ensures Derated(NameMatch, 1.0) == 0.15
    ensures Derated(Completeness, 1.0 / 7.0) == 1.0 / 63.0
  {
    BaseWeightsTotal();
    assert BaseWeights[NameMatch] == 0.15 && BaseWeights[Completeness] == 0.1;
    assert Membership(Completeness, 1.0 / 7.0) == (1.0 / 7.0) / 0.9 by {
      MembershipParamsWellFormed();
      assert MembershipParams[Completeness] == Triangle(0.0, 0.9, 1.0);
    }
  }

  /** With those weights renormalised the weighted sum is 1343/1463; the
      mismatch penalty takes it to just over 64: Moderate, not Very Low. */
  lemma NameOnlyScore(d: FactorScores)
    requires d == FactorScores(1.0, 0.0, 0.0, 0.0, 0.0, 0.0, 1.0 / 7.0, 0.0)
    ensures 64.25 < FuzzyScore(d).totalScore < 64.26
    ensures FuzzyScore(d).level == Moderate
  {
    var w := FuzzyWeights(d);
    NameOnlyWeights(d);
    NameOnlyWeightedSum(d, w);
    WebsiteScore(d);
    assert Score(d, WebsiteMatch) < MismatchThresholds.significant;
  }

  /** The weighted sum of the name-only factors under their renormalised
      weights. */
  lemma NameOnlyWeightedSum(d: FactorScores, w: map<Factor, real>)
    requires d == FactorScores(1.0, 0.0, 0.0, 0.0, 0.0, 0.0, 1.0 / 7.0, 0.0)
    requires Complete(w)
    requires w[NameMatch] == 189.0 / 209.0 && w[Completeness] == 20.0 / 209.0
    requires w[WebsiteMatch] == 0.0 && w[ContactInfo] == 0.0 && w[Location] == 0.0
    requires w[Operational] == 0.0 && w[Reviews] == 0.0 && w[EmirateMatch] == 0.0
    ensures WeightedSum(d, w) == 1343.0 / 1463.0
  {
    var c := Contributions(d, w);
    assert c[NameMatch] == 1.0 * (189.0 / 209.0);
    assert c[Completeness] == (1.0 / 7.0) * (20.0 / 209.0);
    assert c[WebsiteMatch] == 0.0 && c[ContactInfo] == 0.0 && c[Location] == 0.0;
    assert c[Operational] == 0.0 && c[Reviews] == 0.0 && c[EmirateMatch] == 0.0;
  }

  /** The renormalised weights: the name keeps 189/209 of the total and the
      profile 20/209. */
  lemma NameOnlyWeights(d: FactorScores)
    requires d == FactorScores(1.0, 0.0, 0.0, 0.0, 0.0, 0.0, 1.0 / 7.0, 0.0)
    ensures var w := FuzzyWeights(d);
      && w[NameMatch] == 189.0 / 209.0 && w[Completeness] == 20.0 / 209.0
      && w[WebsiteMatch] == 0.0 && w[ContactInfo] == 0.0 && w[Location] == 0.0
      && w[Operational] == 0.0 && w[Reviews] == 0.0 && w[EmirateMatch] == 0.0
  {
    var raw := RawWeights(d);
    NameOnlyRawWeights(d);
    MismatchCancels(d);
    var s := Sum(raw);
    assert s == 209.0 / 1260.0;
    var w := Scale(raw, 1.0 / s);
    assert FuzzyWeights(d) == w;
    assert 1.0 / s == 1260.0 / 209.0;
    assert w[NameMatch] == 0.15 * (1260.0 / 209.0);
    assert w[Completeness] == (1.0 / 63.0) * (1260.0 / 209.0);
  }

  /** A record that has only a name, searched under that name, scores about
      64.26 and is rated Moderate. */
  lemma NameOnlyRecordIsModerate(lib: Library, name: string)
    requires lib.Valid() && NormalizeName(name) != ""
    ensures 64.25 < CalculateBusinessLegitimacy(lib, NameOnly(name), name).totalScore < 64.26
    ensures CalculateBusinessLegitimacy(lib, NameOnly(name), name).level == Moderate
  {
    var d := ExtractFactors(lib, NameOnly(name), name);
    NameOnlyFactors(lib, name);
    NameOnlyScore(d);
    assert CalculateBusinessLegitimacy(lib, NameOnly(name), name) == ReportOf(d);
  }
}

=== FILE: normalizer.dfy ===
/**
 Business-name normalisation: lower-case, trim, turn punctuation into spaces,
 collapse whitespace, drop legal-entity suffix words, then expand
 abbreviations word by word.
 */
module Normalizer {
  import opened Text

  const Abbreviations: map<string, string> := map[
    "mgmt" := "management",
    "llc" := "",
    "ltd" := "",
    "co." := "company",
    "corp" := "corporation",
    "inc" := "",
    "l.l.c" := "",
    "plc" := "",
    "gmbh" := "",
    "pty" := "",
    "pty." := "",
    "ltd." := "",
    "llc." := "",
    "inc." := "",
    "corp." := "",
    "&" := "and",
    "fz" := "free zone",
    "fzc" := "free zone company"
  ]

  const BusinessSuffixes: seq<string> := [
    "llc", "ltd", "inc", "plc", "gmbh", "pty", "corporation", "company",
    "group", "holdings", "holding", "limited", "incorporated"
  ]

  /** The abbreviation keys a cleaned, suffix-free word can actually be. */
  const ReachableKeys: set<string> := {"mgmt", "corp", "fz", "fzc"}

  /** Characters a normalised name is made of, besides the space. */
  predicate IsNameChar(c: char) {
    'a' <= c <= 'z' || '0' <= c <= '9' || c == '_'
  }

  /** A non-empty run of name characters. */
  predicate IsToken(t: string) {
    t != [] && forall c <- t :: IsNameChar(c)
  }

  predicate NoDoubleSpace(s: string) {
    forall i :: 0 <= i < |s| - 1 ==> s[i] != ' ' || s[i + 1] != ' '
  }

  /** Name characters and single inner spaces only. */
  predicate Canonical(s: string) {
    && (forall c <- s :: c == ' ' || IsNameChar(c))
    && (|s| > 0 ==> s[0] != ' ' && s[|s| - 1] != ' ')
    && NoDoubleSpace(s)
  }

  /** `re.sub(r'[^\w\s]', ' ', s)`: every character that is neither a word
      character nor whitespace becomes a space. */
  function ScrubPunctuation(s: string): (r: string)
    ensures |r| == |s|
    ensures forall i :: 0 <= i < |s| ==>
      if IsWordChar(s[i]) || IsSpace(s[i]) then r[i] == s[i] else r[i] == ' '
  {
    if |s| == 0 then ""
    else [if IsWordChar(s[0]) || IsSpace(s[0]) then s[0] else ' '] + ScrubPunctuation(s[1..])
  }

  /** `re.sub(r'\s+', ' ', s)`: every run of whitespace becomes one space.
      The result has no whitespace but single spaces, starts with one
      exactly when the input starts with whitespace, and is empty only for
      the empty input; `CollapseKeepsWords` shows the words stay the same. */
  function CollapseSpaces(s: string): (r: string)
    ensures forall c <- r :: c == ' ' || (c in s && !IsSpace(c))
    ensures NoDoubleSpace(r)
    ensures r == [] <==> s == []
    ensures |s| > 0 ==> (r[0] == ' ' <==> IsSpace(s[0]))
    decreases |s|
  {
    if |s| == 0 then ""
    else if IsSpace(s[0]) then
      var rest := StripLeft(s[1..]);
      StripLeftKeepsChars(s[1..]);
      assert forall c <- s[1..] :: c in s;
      var tail := CollapseSpaces(rest);
      ConsNoDoubleSpace(' ', tail);
      " " + tail
    else
      var tail := CollapseSpaces(s[1..]);
      ConsNoDoubleSpace(s[0], tail);
      [s[0]] + tail
  }

  /** Putting a character in front keeps single spaces unless it makes a pair. */
  lemma ConsNoDoubleSpace(c: char, t: string)
    requires NoDoubleSpace(t) && (c == ' ' && |t| > 0 ==> t[0] != ' ')
    ensures NoDoubleSpace([c] + t)
  {
    var s := [c] + t;
    forall i | 0 <= i < |s| - 1 ensures s[i] != ' ' || s[i + 1] != ' ' {
      assert s[i + 1] == t[i];
      if i > 0 {
        assert s[i] == t[i - 1];
      }
    }
  }

  /** Collapsing whitespace keeps the words: `split()` sees the same words
      before and after, in the same order. */
  lemma CollapseKeepsWords(s: string)
    ensures Words(CollapseSpaces(s)) == Words(s)
  {
    CollapseKeepsWordsFrom(s, []);
  }

  lemma {:induction false} CollapseKeepsWordsFrom(s: string, cur: string)
    requires forall c <- cur :: !IsSpace(c)
    ensures WordsFrom(CollapseSpaces(s), cur) == WordsFrom(s, cur)
    decreases |s|
  {
    if |s| > 0 {
      var r := CollapseSpaces(s);
      if IsSpace(s[0]) {
        var rest := StripLeft(s[1..]);
        assert r[1..] == CollapseSpaces(rest);
        CollapseKeepsWordsFrom(rest, []);
        WordsOfStripLeft(s[1..]);
      } else {
        assert r[1..] == CollapseSpaces(s[1..]);
        CollapseKeepsWordsFrom(s[1..], cur + [s[0]]);
      }
    }
  }

  /** The words of a name after lower-casing, trimming, scrubbing punctuation
      and collapsing whitespace; each is a run of name characters. */
  function CleanWords(name: string): (ws: seq<string>)
    ensures forall w <- ws :: IsToken(w)
  {
    var scrubbed := ScrubPunctuation(Strip(Lower(name)));
    ScrubbedChars(name);
    Words(CollapseSpaces(scrubbed))
  }

  /** After lower-casing and scrubbing, only whitespace and name characters remain. */
  lemma ScrubbedChars(name: string)
    ensures forall c <- ScrubPunctuation(Strip(Lower(name))) :: IsSpace(c) || IsNameChar(c)
  {
    var lowered := Lower(name);
    LowerHasNoUpper(name);
    var trimmed := Strip(lowered);
    StripKeepsChars(lowered);
    var scrubbed := ScrubPunctuation(trimmed);
    forall c <- scrubbed ensures IsSpace(c) || IsNameChar(c) {
      var k :| 0 <= k < |scrubbed| && scrubbed[k] == c;
      assert trimmed[k] in trimmed;
    }
  }

  lemma LowerHasNoUpper(s: string)
    ensures forall c <- Lower(s) :: !IsUpper(c)
  {
    var lowered := Lower(s);
    forall c <- lowered ensures !IsUpper(c) {
      var k :| 0 <= k < |lowered| && lowered[k] == c;
    }
  }

  /** `[w for w in ws if w not in BUSINESS_SUFFIXES]` */
  function DropSuffixes(ws: seq<string>): (r: seq<string>)
    ensures forall w <- r :: w in ws && w !in BusinessSuffixes
    ensures forall w <- ws :: w !in BusinessSuffixes ==> w in r
  {
    if |ws| == 0 then []
    else if ws[0] in BusinessSuffixes then DropSuffixes(ws[1..])
    else [ws[0]] + DropSuffixes(ws[1..])
  }

  /** The suffix filter works word by word: filtering a concatenation
      filters each part, so order and repetitions of kept words survive. */
  lemma {:induction false} DropSuffixesAppend(a: seq<string>, b: seq<string>)
    ensures DropSuffixes(a + b) == DropSuffixes(a) + DropSuffixes(b)
  {
    if |a| == 0 {
      assert a + b == b;
    } else {
      assert (a + b)[0] == a[0] && (a + b)[1..] == a[1..] + b;
      DropSuffixesAppend(a[1..], b);
    }
  }

  /** A one-word list is emptied by the filter exactly when the word is a suffix. */
  lemma DropSuffixesSingle(w: string)
    ensures DropSuffixes([w]) == if w in BusinessSuffixes then [] else [w]
  {
    assert [w][1..] == [];
  }

  /** `ABBREVIATIONS.get(w, w)` */
  function Expand(w: string): string {
    if w in Abbreviations then Abbreviations[w] else w
  }

  function ExpandAll(ws: seq<string>): (r: seq<string>)
    ensures |r| == |ws|
    ensures forall i :: 0 <= i < |ws| ==> r[i] == Expand(ws[i])
  {
    if |ws| == 0 then [] else [Expand(ws[0])] + ExpandAll(ws[1..])
  }

  /** `normalize_name`: the result is lower-case name characters separated by
      single spaces, with no space at either end. */
  function NormalizeName(name: string): (r: string)
    ensures Canonical(r)
  {
    var kept := DropSuffixes(CleanWords(name));
    var expanded := ExpandAll(kept);
    ExpandAllCanonical(kept);
    JoinCanonical(expanded);
    StripCanonical(Join(expanded, " "));
    Strip(Join(expanded, " "))
  }

  // ---------------------------------------------------------------------
  // Why the output is canonical.
  // ---------------------------------------------------------------------

  /** A cleaned word that survived the suffix filter can only match the
      abbreviation keys without punctuation that are not suffixes themselves. */
  lemma ReachableAbbreviation(t: string)
    requires IsToken(t) && t !in BusinessSuffixes && t in Abbreviations
    ensures t in ReachableKeys
  {
    PunctuatedKeysAreNotTokens();
  }

  lemma PunctuatedKeysAreNotTokens()
    ensures !IsToken("co.") && !IsToken("l.l.c") && !IsToken("pty.") && !IsToken("ltd.")
    ensures !IsToken("llc.") && !IsToken("inc.") && !IsToken("corp.") && !IsToken("&")
  {
    assert "co."[2] in "co.";
    assert "l.l.c"[1] in "l.l.c";
    assert "pty."[3] in "pty.";
    assert "ltd."[3] in "ltd.";
    assert "llc."[3] in "llc.";
    assert "inc."[3] in "inc.";
    assert "corp."[4] in "corp.";
    assert "&"[0] in "&";
  }

  lemma ExpandCanonical(t: string)
    requires IsToken(t) && t !in BusinessSuffixes
    ensures Expand(t) != [] && Canonical(Expand(t))
  {
    if t in Abbreviations {
      ReachableAbbreviation(t);
      ExpansionFacts(t);
      var ws := ExpansionWords(t);
      forall w <- ws ensures w != [] && Canonical(w) {
        TokenIsCanonical(w);
      }
      JoinCanonical(ws);
    } else {
      TokenIsCanonical(t);
    }
  }

  lemma ExpansionFacts(t: string)
    requires t in ReachableKeys
    ensures ExpandsTo(t)
  {
    if t == "mgmt" {
      MgmtExpansion();
    } else if t == "corp" {
      CorpExpansion();
    } else if t == "fz" {
      FzExpansion();
    } else {
      FzcExpansion();
    }
  }

  /** The words each reachable abbreviation expands to. */
  function ExpansionWords(t: string): seq<string>
    requires t in ReachableKeys
  {
    if t == "mgmt" then ["management"]
    else if t == "corp" then ["corporation"]
    else if t == "fz" then ["free", "zone"]
    else ["free", "zone", "company"]
  }

  /** The expansion of a reachable key is its expansion words joined by
      spaces; the words are tokens, and only "corporation" and "company" are
      suffix words. */
  predicate ExpandsTo(t: string)
    requires t in ReachableKeys
  {
    && Expand(t) == Join(ExpansionWords(t), " ")
    && (forall w <- ExpansionWords(t) :: IsToken(w))
    && (forall w <- ExpansionWords(t) :: w in BusinessSuffixes <==> w == "corporation" || w == "company")
  }

  lemma MgmtExpansion()
    ensures ExpandsTo("mgmt")
  {
    assert "management" !in BusinessSuffixes;
  }

  lemma CorpExpansion()
    ensures ExpandsTo("corp")
  {
  }

  lemma FzExpansion()
    ensures ExpandsTo("fz")
  {
    assert ["free", "zone"][1..] == ["zone"];
    assert "free" !in BusinessSuffixes && "zone" !in BusinessSuffixes;
  }

  lemma FzcExpansion()
    ensures ExpandsTo("fzc")
  {
    FzcJoin();
    FzcWords();
  }

  lemma FzcJoin()
    ensures Join(ExpansionWords("fzc"), " ") == "free zone company"
  {
    var ws := ["free", "zone", "company"];
    assert ws[1..] == ["zone", "company"] && ws[1..][1..] == ["company"];
  }

  lemma FzcWords()
    ensures forall w <- ExpansionWords("fzc") :: IsToken(w)
    ensures forall w <- ExpansionWords("fzc") :: w in BusinessSuffixes <==> w == "corporation" || w == "company"
  {
    assert "free" !in BusinessSuffixes && "zone" !in BusinessSuffixes;
  }

  lemma ExpandAllCanonical(kept: seq<string>)
    requires forall t <- kept :: IsToken(t) && t !in BusinessSuffixes
    ensures forall e <- ExpandAll(kept) :: e != [] && Canonical(e)
  {
    forall e <- ExpandAll(kept) ensures e != [] && Canonical(e) {
      var i :| 0 <= i < |kept| && ExpandAll(kept)[i] == e;
      ExpandCanonical(kept[i]);
    }
  }

  /** Joining non-empty canonical pieces with single spaces stays canonical. */
  lemma {:induction false} JoinCanonical(ts: seq<string>)
    requires forall t <- ts :: t != [] && Canonical(t)
    ensures Canonical(Join(ts, " "))
    ensures |ts| > 0 ==> Join(ts, " ") != []
  {
    if |ts| == 1 {
      assert ts[0] in ts;
    } else if |ts| >= 2 {
      var t, rest := ts[0], Join(ts[1..], " ");
      assert t in ts;
      assert forall u <- ts[1..] :: u in ts;
      JoinCanonical(ts[1..]);
      var s := t + " " + rest;
      assert Join(ts, " ") == s;
      forall i | 0 <= i < |s| - 1 ensures s[i] != ' ' || s[i + 1] != ' ' {
        if i < |t| - 1 {
          assert s[i] == t[i] && s[i + 1] == t[i + 1];
        } else if i == |t| - 1 {
          assert s[i] == t[|t| - 1];
        } else if i == |t| {
          assert s[i + 1] == rest[0];
        } else {
          assert s[i] == rest[i - |t| - 1] && s[i + 1] == rest[i - |t|];
        }
      }
      assert s[|s| - 1] == rest[|rest| - 1];
    }
  }

  /** `strip()` leaves a canonical string alone. */
  lemma StripCanonical(s: string)
    requires Canonical(s)
    ensures Strip(s) == s
  {
    if |s| > 0 {
      assert s[0] in s && s[|s| - 1] in s;
      assert StripLeft(s) == s;
      assert StripRight(s) == s;
    }
  }

  // ---------------------------------------------------------------------
  // Normalising a name that is already a list of clean words.
  // ---------------------------------------------------------------------

  lemma {:induction false} CollapseKeepsSingleSpaces(s: string)
    requires forall c <- s :: c == ' ' || !IsSpace(c)
    requires NoDoubleSpace(s)
    requires |s| > 0 ==> s[|s| - 1] != ' '
    ensures CollapseSpaces(s) == s
    decreases |s|
  {
    if |s| > 0 {
      var tail := s[1..];
      assert s == [s[0]] + tail;
      assert forall c <- tail :: c == ' ' || !IsSpace(c) by {
        forall c <- tail ensures c == ' ' || !IsSpace(c) {
          assert c in s;
        }
      }
      assert NoDoubleSpace(tail) by {
        forall i | 0 <= i < |tail| - 1 ensures tail[i] != ' ' || tail[i + 1] != ' ' {
          assert tail[i] == s[i + 1] && tail[i + 1] == s[i + 2];
        }
      }
      CollapseKeepsSingleSpaces(tail);
      if s[0] == ' ' {
        assert s[1] != ' ' && s[1] in s;
        assert StripLeft(tail) == tail;
      } else {
        assert s[0] in s;
      }
    }
  }

  lemma TokenIsCanonical(t: string)
    requires IsToken(t)
    ensures Canonical(t) && IsWord(t)
  {
    assert t[0] in t && t[|t| - 1] in t;
    forall c <- t ensures !IsSpace(c) {
      assert IsNameChar(c);
    }
    forall i | 0 <= i < |t| ensures t[i] != ' ' {
      assert t[i] in t;
    }
  }

  /** The words of a space-joined list of clean words are the words themselves. */
  lemma CleanWordsOfTokens(ts: seq<string>)
    requires forall t <- ts :: IsToken(t)
    ensures CleanWords(Join(ts, " ")) == ts
  {
    var s := Join(ts, " ");
    JoinOfTokens(ts);
    LowerScrubKeepCanonical(s);
    StripCanonical(s);
    assert ScrubPunctuation(Strip(Lower(s))) == s;
    CollapseKeepsSingleSpaces(s);
    SplitJoinRoundTrip(ts);
    assert Words(CollapseSpaces(s)) == ts;
  }

  lemma JoinOfTokens(ts: seq<string>)
    requires forall t <- ts :: IsToken(t)
    ensures Canonical(Join(ts, " "))
    ensures forall t <- ts :: IsWord(t)
  {
    forall t <- ts ensures t != [] && Canonical(t) && IsWord(t) {
      TokenIsCanonical(t);
    }
    JoinCanonical(ts);
  }

  /** Lower-casing and scrubbing punctuation leave a canonical string alone. */
  lemma LowerScrubKeepCanonical(s: string)
    requires Canonical(s)
    ensures Lower(s) == s && ScrubPunctuation(s) == s
    ensures forall c <- s :: c == ' ' || !IsSpace(c)
  {
    forall i | 0 <= i < |s| ensures LowerChar(s[i]) == s[i] && (IsWordChar(s[i]) || IsSpace(s[i])) {
      assert s[i] in s;
    }
  }

  /** Normalising clean words just drops the suffix words and expands the rest. */
  lemma NormalizeCleanWords(ts: seq<string>)
    requires forall t <- ts :: IsToken(t)
    ensures NormalizeName(Join(ts, " ")) == Join(ExpandAll(DropSuffixes(ts)), " ")
  {
    CleanWordsOfTokens(ts);
    var kept := DropSuffixes(ts);
    ExpandAllCanonical(kept);
    JoinCanonical(ExpandAll(kept));
    StripCanonical(Join(ExpandAll(kept), " "));
  }

  /** A single clean word normalises to nothing when it is a suffix word and
      to its expansion otherwise. */
  lemma NormalizeOneWord(t: string)
    requires IsToken(t)
    ensures NormalizeName(t) == if t in BusinessSuffixes then "" else Expand(t)
  {
    assert Join([t], " ") == t;
    NormalizeCleanWords([t]);
    DropSuffixesOfOne(t);
  }

  lemma DropSuffixesOfOne(t: string)
    ensures Join(ExpandAll(DropSuffixes([t])), " ") == if t in BusinessSuffixes then "" else Expand(t)
  {
    assert [t][1..] == [];
    if t !in BusinessSuffixes {
      assert ExpandAll([t]) == [Expand(t)];
    }
  }

  /** Normalisation is not idempotent: the suffix filter runs before the
      expansion, so "corp" becomes "corporation", which a second pass drops. */
  lemma NormalizeNotIdempotent()
    ensures NormalizeName("corp") == "corporation"
    ensures NormalizeName(NormalizeName("corp")) == ""
  {
    CorpExpansion();
    assert IsToken("corp") && "corp" !in BusinessSuffixes;
    NormalizeOneWord("corp");
    NormalizeOneWord("corporation");
  }

  /** Only four abbreviation keys can ever be looked up: keys with
      punctuation cannot survive the scrub, and the keys that map to the
      empty string are all suffix words, filtered out first. */
  lemma PunctuatedKeysUnreachable(name: string)
    ensures forall t <- DropSuffixes(CleanWords(name)) :: t in Abbreviations ==> t in ReachableKeys
    ensures forall t <- DropSuffixes(CleanWords(name)) :: Expand(t) != []
  {
    var kept := DropSuffixes(CleanWords(name));
    forall t <- kept ensures (t in Abbreviations ==> t in ReachableKeys) && Expand(t) != [] {
      ExpandCanonical(t);
      if t in Abbreviations {
        ReachableAbbreviation(t);
      }
    }
  }

  /** Words of the expansion of a surviving word: a suffix word among them
      can only be "corporation" (from "corp") or "company" (from "fzc"). */
  lemma ExpansionSuffixWords(t: string)
    requires IsToken(t) && t !in BusinessSuffixes
    ensures forall w <- Words(Expand(t)) :: w in BusinessSuffixes ==> w == "corporation" || w == "company"
  {
    if t in Abbreviations {
      ReachableAbbreviation(t);
      ExpansionFacts(t);
      var ws := ExpansionWords(t);
      forall w <- ws ensures IsWord(w) {
        TokenIsCanonical(w);
      }
      SplitJoinRoundTrip(ws);
    } else {
      TokenIsCanonical(t);
      WordsOfWord(t);
    }
  }

  /** No word of a normalised name is a business suffix unless the
      abbreviation expansion produced it. */
  lemma NormalizedSuffixWords(name: string)
    ensures forall w <- Words(NormalizeName(name)) ::
      w in BusinessSuffixes ==> w == "corporation" || w == "company"
  {
    var kept := DropSuffixes(CleanWords(name));
    var expanded := ExpandAll(kept);
    ExpandAllCanonical(kept);
    JoinCanonical(expanded);
    StripCanonical(Join(expanded, " "));
    WordsOfJoin(expanded);
    forall w <- Words(NormalizeName(name)) | w in BusinessSuffixes
      ensures w == "corporation" || w == "company"
    {
      InWordsOfAll(expanded, w);
      var i :| 0 <= i < |expanded| && w in Words(expanded[i]);
      assert kept[i] in kept;
      ExpansionSuffixWords(kept[i]);
    }
  }

  /** A normalised name has no dot, so splitting it on '.' gives one piece. */
  lemma NormalizedHasNoDot(name: string)
    ensures '.' !in NormalizeName(name)
    ensures SplitOn(NormalizeName(name), '.') == [NormalizeName(name)]
  {
    var n := NormalizeName(name);
    assert Canonical(n);
    assert !IsNameChar('.');
  }
}

=== FILE: real_arith.dfy ===
/**
 Small facts about products and quotients of reals that the solver does not
 find alone.
 */
module RealArith {

  lemma MulNonNegative(a: real, b: real)
    requires a >= 0.0 && b >= 0.0
    ensures a * b >= 0.0
  {
  }

  lemma MulPositive(a: real, b: real)
    requires a > 0.0 && b > 0.0
    ensures a * b > 0.0
  {
  }

  /** A non-negative value scaled by a positive factor stays non-negative and
      is 0 exactly when the value is. */
  lemma ZeroPattern(x: real, d: real)
    requires x >= 0.0 && d > 0.0
    ensures x * d >= 0.0
    ensures x * d == 0.0 <==> x == 0.0
  {
    if x > 0.0 {
      MulPositive(x, d);
    }
  }

  lemma AddBounds(a: real, b: real, c: real, d: real)
    requires a <= c && b <= d
    ensures a + b <= c + d
  {
  }

  /** A non-negative quantity scaled by a factor in [0, 1] stays between 0 and itself. */
  lemma ScaleWithinUnit(x: real, w: real)
    requires 0.0 <= x <= 1.0 && w >= 0.0
    ensures 0.0 <= x * w <= w
  {
    MulNonNegative(x, w);
    MulNonNegative(1.0 - x, w);
  }

  /** A value that is a non-negative quantity scaled by a factor in [0, 1]
      lies between 0 and that quantity. */
  lemma ProductWithinUnit(p: real, x: real, y: real)
    requires p == x * y && 0.0 <= x <= 1.0 && y >= 0.0
    ensures 0.0 <= p <= y
  {
    ScaleWithinUnit(x, y);
  }

  /** A quantity scaled by `lo` is at most the same quantity scaled by `x` >= `lo`. */
  lemma ProductsOrdered(p: real, q: real, lo: real, x: real, y: real)
    requires p == y * lo && q == x * y && lo <= x && y >= 0.0
    ensures p <= q
  {
    MulMonotone(lo, x, y);
    assert y * lo == lo * y;
  }

  /** A product with a non-negative factor is monotone in the other factor. */
  lemma MulMonotone(x: real, y: real, w: real)
    requires x <= y && w >= 0.0
    ensures x * w <= y * w
  {
    MulNonNegative(y - x, w);
  }

  lemma SelfRatio(d: real)
    requires d > 0.0
    ensures d / d == 1.0
  {
  }

  /** A positive quotient of a numerator no larger than the denominator lies in
      (0, 1], and below 1 when the numerator is smaller. */
  lemma RatioInUnit(n: real, d: real)
    requires 0.0 < n <= d
    ensures 0.0 < n / d <= 1.0
    ensures n < d ==> n / d < 1.0
    ensures n == d ==> n / d == 1.0
  {
    if n == d {
      SelfRatio(d);
    }
  }

  /** A non-zero number times its reciprocal is 1. */
  lemma InverseCancels(s: real)
    requires s != 0.0
    ensures s * (1.0 / s) == 1.0 && (1.0 / s) * s == 1.0
  {
  }

  /** Dividing by a scaled total undoes the same scaling of the numerator. */
  lemma CancelScale(x: real, c: real, s: real)
    requires c != 0.0 && s != 0.0
    ensures (x * c) * (1.0 / (s * c)) == x * (1.0 / s)
  {
  }
}

=== FILE: similarity.dfy ===
/**
 The three similarity blends: business name against business name, company
 name against a website domain, and e-mail address against e-mail address.
 Each combines ratios from string-matching libraries whose internals are not
 modelled; what the model relies on is stated in `Library.Valid`.
 */
module Similarity {
  import opened Text
  import opened Normalizer
  import opened RealArith

  /** The library calls the blends make, as opaque functions. */
  datatype Library = Library(
    sequenceRatio: (string, string) -> real, // difflib.SequenceMatcher(None, a, b).ratio()
    tokenSetRatio: (string, string) -> int,  // fuzz.token_set_ratio(a, b)
    partialRatio: (string, string) -> int,   // fuzz.partial_ratio(a, b)
    extractDomain: string -> string)         // extract_domain_name(url), built on tldextract
  {
    /** What the libraries promise: a sequence ratio lies in [0, 1] and is 1
        for two equal strings (also two empty ones); the fuzzy ratios are
        whole numbers in [0, 100]. */
    ghost predicate Valid() {
      && (forall a, b :: 0.0 <= sequenceRatio(a, b) <= 1.0)
      && (forall a :: sequenceRatio(a, a) == 1.0)
      && (forall a, b :: 0 <= tokenSetRatio(a, b) <= 100)
      && (forall a, b :: 0 <= partialRatio(a, b) <= 100)
    }
  }

  const DefaultPrimaryWeight: real := 0.6
  const DefaultSecondaryWeight: real := 0.4

  // ---------------------------------------------------------------------
  // Domain similarity
  // ---------------------------------------------------------------------

  /** The adjustment applied to the blended domain score: a positive blend
      with a partial ratio above 30 is raised to at least 60, and with one
      above 50 is then scaled by 1.5 and capped at 95. */
  function AdjustDomainScore(blend: real, slPartial: int, fullPartial: int): (r: real)
    ensures blend <= 0.0 ==> r == blend
    ensures blend > 0.0 && slPartial <= 30 && fullPartial <= 30 ==> r == blend
    ensures blend > 0.0 && (slPartial > 30 || fullPartial > 30) ==> r >= 60.0 && (r >= blend || r == 95.0)
    ensures blend > 0.0 && (slPartial > 50 || fullPartial > 50) ==> 90.0 <= r <= 95.0
    ensures 0.0 <= blend <= 100.0 ==> 0.0 <= r <= 100.0
  {
    if blend > 0.0 && (slPartial > 30 || fullPartial > 30) then
      var floored := if blend >= 60.0 then blend else 60.0;
      if slPartial > 50 || fullPartial > 50 then
        (if floored * 1.5 <= 95.0 then floored * 1.5 else 95.0)
      else
        floored
    else
      blend
  }

  /** `calculate_domain_similarity(company_name, domain)`, as written: the
      normalised domain is split on '.', and the second-to-last piece is
      compared when there are at least two pieces. */
  function DomainSimilarity(lib: Library, companyName: string, domain: string): (r: real)
    ensures lib.Valid() ==> 0.0 <= r <= 100.0
  {
    DomainBlend(lib, NormalizeName(companyName), NormalizeName(domain))
  }

  /** The body of the domain score once both names are normalised: split the
      domain on '.', blend the ratios against the second-level piece and the
      whole domain, then adjust. */
  function DomainBlend(lib: Library, company: string, normalizedDomain: string): (r: real)
    ensures lib.Valid() ==> 0.0 <= r <= 100.0
  {
    var parts := SplitOn(normalizedDomain, '.');
    var secondLevel := if |parts| >= 2 then parts[|parts| - 2] else parts[0];
    var slSimilarity := lib.tokenSetRatio(company, secondLevel);
    var fullSimilarity := lib.tokenSetRatio(company, normalizedDomain);
    var slPartial := lib.partialRatio(company, secondLevel);
    var fullPartial := lib.partialRatio(company, normalizedDomain);
    var blend := slSimilarity as real * 0.5 + slPartial as real * 0.2
      + fullSimilarity as real * 0.2 + fullPartial as real * 0.1;
    assert lib.Valid() ==> 0.0 <= blend <= 100.0 by {
      if lib.Valid() {
        assert 0 <= slSimilarity <= 100 && 0 <= slPartial <= 100;
        assert 0 <= fullSimilarity <= 100 && 0 <= fullPartial <= 100;
      }
    }
    AdjustDomainScore(blend, slPartial, fullPartial)
  }

  /** The two-piece branch never runs: a normalised name has no '.', so the
      "second-level" piece is the whole normalised domain and the blend is
      0.7 of its token-set ratio plus 0.3 of its partial ratio. */
  lemma DomainSimilarityReduces(lib: Library, companyName: string, domain: string)
    ensures |SplitOn(NormalizeName(domain), '.')| == 1
    ensures
      var company, d := NormalizeName(companyName), NormalizeName(domain);
      var t, p := lib.tokenSetRatio(company, d), lib.partialRatio(company, d);
      DomainSimilarity(lib, companyName, domain) == AdjustDomainScore(0.7 * t as real + 0.3 * p as real, p, p)
  {
    NormalizedHasNoDot(domain);
    OnePieceBlend(lib, NormalizeName(companyName), NormalizeName(domain));
  }

  /** A domain without '.' is its own second-level piece. */
  lemma OnePieceBlend(lib: Library, company: string, d: string)
    requires SplitOn(d, '.') == [d]
    ensures
      var t, p := lib.tokenSetRatio(company, d), lib.partialRatio(company, d);
      DomainBlend(lib, company, d) == AdjustDomainScore(0.7 * t as real + 0.3 * p as real, p, p)
  {
    var t, p := lib.tokenSetRatio(company, d), lib.partialRatio(company, d);
    assert t as real * 0.5 + p as real * 0.2 + t as real * 0.2 + p as real * 0.1 == 0.7 * t as real + 0.3 * p as real;
  }

  /** The score thresholds of the domain blend, for any valid library. */
  lemma DomainSimilarityThresholds(lib: Library, companyName: string, domain: string)
    requires lib.Valid()
    ensures
      var company, d := NormalizeName(companyName), NormalizeName(domain);
      var t, p := lib.tokenSetRatio(company, d), lib.partialRatio(company, d);
      var r := DomainSimilarity(lib, companyName, domain);
      && (p > 30 && 0.7 * t as real + 0.3 * p as real > 0.0 ==> r >= 60.0)
      && (p > 50 ==> 90.0 <= r <= 95.0)
      && (t == 0 && p == 0 ==> r == 0.0)
      && (p <= 30 ==> r == 0.7 * t as real + 0.3 * p as real)
  {
    DomainSimilarityReduces(lib, companyName, domain);
  }

  // ---------------------------------------------------------------------
  // Name similarity
  // ---------------------------------------------------------------------

  /** Python's `ws[:n]` */
  function Prefix(ws: seq<string>, n: nat): seq<string> {
    if |ws| <= n then ws else ws[..n]
  }

  /** Python's `ws[n:]` */
  function Suffix(ws: seq<string>, n: nat): seq<string> {
    if |ws| <= n then [] else ws[n..]
  }

  /** The blend of `calculate_name_similarity` applied to two names that are
      already normalised: the first two words of each are compared as the
      primary part, the remaining words as the secondary part, and two names
      of which one has no words score 0. */
  function WordBlend(lib: Library, n1: string, n2: string, weightPrimary: real, weightSecondary: real): (r: real)
    ensures Words(n1) == [] || Words(n2) == [] ==> r == 0.0
    ensures lib.Valid() && weightPrimary >= 0.0 && weightSecondary >= 0.0 ==>
      0.0 <= r <= weightPrimary + weightSecondary
  {
    var words1 := Words(n1);
    var words2 := Words(n2);
    if |words1| == 0 || |words2| == 0 then
      0.0
    else
      var primary1, secondary1 := Join(Prefix(words1, 2), " "), Join(Suffix(words1, 2), " ");
      var primary2, secondary2 := Join(Prefix(words2, 2), " "), Join(Suffix(words2, 2), " ");
      var primarySim := lib.sequenceRatio(primary1, primary2);
      var secondarySim := lib.sequenceRatio(secondary1, secondary2);
      assert lib.Valid() ==> 0.0 <= primarySim <= 1.0 && 0.0 <= secondarySim <= 1.0;
      BlendBounds(primarySim, secondarySim, weightPrimary, weightSecondary);
      primarySim * weightPrimary + secondarySim * weightSecondary
  }

  /** `calculate_name_similarity(name1, name2, weight_primary, weight_secondary)`:
      the word blend of the two normalised names; a name that normalises to
      nothing scores 0 against anything. */
  function NameSimilarity(lib: Library, name1: string, name2: string, weightPrimary: real, weightSecondary: real): (r: real)
    ensures NormalizeName(name1) == "" || NormalizeName(name2) == "" ==> r == 0.0
    ensures lib.Valid() && weightPrimary >= 0.0 && weightSecondary >= 0.0 ==>
      0.0 <= r <= weightPrimary + weightSecondary
  {
    var n1, n2 := NormalizeName(name1), NormalizeName(name2);
    CanonicalWordsEmpty(n1);
    CanonicalWordsEmpty(n2);
    WordBlend(lib, n1, n2, weightPrimary, weightSecondary)
  }

  /** A canonical string (a normalised name among them) has no words exactly
      when it is empty. */
  lemma CanonicalWordsEmpty(n: string)
    requires Canonical(n)
    ensures Words(n) == [] <==> n == ""
  {
    if n != "" {
      assert n[0] in n && !IsSpace(n[0]);
    }
  }

  /** Two ratios in [0, 1] blended with non-negative weights stay between 0
      and the total weight. */
  lemma BlendBounds(x: real, y: real, wx: real, wy: real)
    ensures 0.0 <= x <= 1.0 && 0.0 <= y <= 1.0 && wx >= 0.0 && wy >= 0.0 ==>
      0.0 <= x * wx + y * wy <= wx + wy
  {
    if 0.0 <= x <= 1.0 && 0.0 <= y <= 1.0 && wx >= 0.0 && wy >= 0.0 {
      ScaleWithinUnit(x, wx);
      ScaleWithinUnit(y, wy);
      AddBounds(x * wx, y * wy, wx, wy);
    }
  }

  /** With at most two words on each side both secondary parts are empty,
      so they match perfectly and contribute the whole secondary weight. */
  lemma ShortNamesGetSecondaryWeight(lib: Library, n1: string, n2: string, weightPrimary: real, weightSecondary: real)
    requires lib.Valid() && weightPrimary >= 0.0
    requires 1 <= |Words(n1)| <= 2 && 1 <= |Words(n2)| <= 2
    ensures WordBlend(lib, n1, n2, weightPrimary, weightSecondary) >= weightSecondary
  {
    assert lib.sequenceRatio("", "") == 1.0;
  }

  /** A name compared with itself scores the sum of both weights, or 0 when
      nothing is left of it after normalisation. */
  lemma NameSimilaritySelf(lib: Library, name: string, weightPrimary: real, weightSecondary: real)
    requires lib.Valid()
    ensures NameSimilarity(lib, name, name, weightPrimary, weightSecondary)
      == if NormalizeName(name) == "" then 0.0 else weightPrimary + weightSecondary
  {
    var n := NormalizeName(name);
    CanonicalWordsEmpty(n);
    WordBlendSelf(lib, n, weightPrimary, weightSecondary);
  }

  lemma WordBlendSelf(lib: Library, n: string, weightPrimary: real, weightSecondary: real)
    requires lib.Valid()
    ensures WordBlend(lib, n, n, weightPrimary, weightSecondary)
      == if Words(n) == [] then 0.0 else weightPrimary + weightSecondary
  {
  }

  // ---------------------------------------------------------------------
  // E-mail similarity
  // ---------------------------------------------------------------------

  /** `calculate_email_similarity(email1, email2)`: after lower-casing and
      trimming, each address must split on '@' into exactly a local part and
      a domain part; otherwise the score is 0. */
  function EmailSimilarity(lib: Library, email1: string, email2: string): (r: real)
    ensures lib.Valid() ==> 0.0 <= r <= 100.0
  {
    var e1 := Strip(Lower(email1));
    var e2 := Strip(Lower(email2));
    var parts1 := SplitOn(e1, '@');
    var parts2 := SplitOn(e2, '@');
    if |parts1| != 2 || |parts2| != 2 then
      0.0
    else
      var localSimilarity := lib.sequenceRatio(parts1[0], parts2[0]);
      var domainSimilarity := lib.sequenceRatio(parts1[1], parts2[1]);
      assert lib.Valid() ==> 0.0 <= localSimilarity <= 1.0 && 0.0 <= domainSimilarity <= 1.0;
      (localSimilarity * 0.7 + domainSimilarity * 0.3) * 100.0
  }

  /** Lower-casing and trimming keep the number of '@' characters. */
  lemma AtCountKept(email: string)
    ensures Occurrences(Strip(Lower(email)), '@') == Occurrences(email, '@')
  {
    LowerKeepsOccurrences(email, '@');
    StripKeepsOccurrences(Lower(email), '@');
  }

  /** The score is 0 unless both addresses hold exactly one '@'; then it is the
      0.7/0.3 blend of the local-part and domain-part ratios, on a 0-100 scale. */
  lemma EmailSimilarityShape(lib: Library, email1: string, email2: string)
    ensures Occurrences(email1, '@') != 1 || Occurrences(email2, '@') != 1 ==>
      EmailSimilarity(lib, email1, email2) == 0.0
    ensures Occurrences(email1, '@') == 1 && Occurrences(email2, '@') == 1 ==>
      var p1, p2 := SplitOn(Strip(Lower(email1)), '@'), SplitOn(Strip(Lower(email2)), '@');
      && |p1| == 2 && |p2| == 2
      && Strip(Lower(email1)) == p1[0] + "@" + p1[1]
      && Strip(Lower(email2)) == p2[0] + "@" + p2[1]
      && EmailSimilarity(lib, email1, email2)
         == (0.7 * lib.sequenceRatio(p1[0], p2[0]) + 0.3 * lib.sequenceRatio(p1[1], p2[1])) * 100.0
  {
    AtCountKept(email1);
    AtCountKept(email2);
    var p1, p2 := SplitOn(Strip(Lower(email1)), '@'), SplitOn(Strip(Lower(email2)), '@');
    if |p1| == 2 {
      assert Join(p1, "@") == p1[0] + "@" + Join(p1[1..], "@");
    }
    if |p2| == 2 {
      assert Join(p2, "@") == p2[0] + "@" + Join(p2[1..], "@");
    }
  }

  /** A well-formed address compared with itself scores 100. */
  lemma EmailSimilaritySelf(lib: Library, email: string)
    requires lib.Valid()
    requires Occurrences(email, '@') == 1
    ensures EmailSimilarity(lib, email, email) == 100.0
  {
    AtCountKept(email);
  }
}

=== FILE: text.dfy ===
/**
 The handful of Python `str` primitives the scoring code relies on, over ASCII:
 `lower()`, `strip()`, `split()` (on whitespace), `split(sep)`, `sep.join(...)`,
 `startswith` and `endswith`. Characters outside ASCII are neither letters nor
 whitespace here.
 */
module Text {

  /** Python's `str.isspace()` (and regex `\s`) restricted to ASCII: the space,
      the controls 0x09..0x0D and the separators 0x1C..0x1F. */
  predicate IsSpace(c: char) {
    c == ' ' || 9 <= c as int <= 13 || 28 <= c as int <= 31
  }

  predicate IsUpper(c: char) {
    'A' <= c <= 'Z'
  }

  /** Regex `\w` restricted to ASCII: letters, digits and the underscore. */
  predicate IsWordChar(c: char) {
    'a' <= c <= 'z' || 'A' <= c <= 'Z' || '0' <= c <= '9' || c == '_'
  }

  function LowerChar(c: char): char {
    if IsUpper(c) then (c as int + 32) as char else c
  }

  /** `s.lower()` */
  function Lower(s: string): (r: string)
    ensures |r| == |s|
    ensures forall i :: 0 <= i < |s| ==> r[i] == LowerChar(s[i])
  {
    if |s| == 0 then "" else [LowerChar(s[0])] + Lower(s[1..])
  }

  function StripLeft(s: string): (r: string)
    ensures |r| <= |s| && r == s[|s| - |r|..]
    ensures forall i :: 0 <= i < |s| - |r| ==> IsSpace(s[i])
    ensures |r| > 0 ==> !IsSpace(r[0])
  {
    if |s| > 0 && IsSpace(s[0]) then StripLeft(s[1..]) else s
  }

  function StripRight(s: string): (r: string)
    ensures |r| <= |s| && r == s[..|r|]
    ensures forall i :: |r| <= i < |s| ==> IsSpace(s[i])
    ensures |r| > 0 ==> !IsSpace(r[|r| - 1])
  {
    if |s| > 0 && IsSpace(s[|s| - 1]) then StripRight(s[..|s| - 1]) else s
  }

  /** `s.strip()`: the input with its leading and trailing whitespace removed. */
  function Strip(s: string): (r: string)
    ensures exists i, j :: 0 <= i <= j <= |s| && r == s[i..j]
    ensures |r| > 0 ==> !IsSpace(r[0]) && !IsSpace(r[|r| - 1])
  {
    var l := StripLeft(s);
    var r := StripRight(l);
    assert r == s[|s| - |l|..|s| - |l| + |r|];
    r
  }

  /** Number of occurrences of `c` in `s`. */
  function Occurrences(s: string, c: char): nat {
    if |s| == 0 then 0 else (if s[0] == c then 1 else 0) + Occurrences(s[1..], c)
  }

  /** `sep.join(ws)` */
  function Join(ws: seq<string>, sep: string): string {
    if |ws| == 0 then ""
    else if |ws| == 1 then ws[0]
    else ws[0] + sep + Join(ws[1..], sep)
  }

  /** Python's `s.split(sep)` for a one-character separator: the maximal
      separator-free pieces, empty ones included, so that joining them back
      with the separator gives `s` again. */
  function SplitOn(s: string, sep: char): (parts: seq<string>)
    ensures |parts| == Occurrences(s, sep) + 1
    ensures forall p <- parts :: sep !in p
    ensures Join(parts, [sep]) == s
    decreases |s|
  {
    if |s| == 0 then [""]
    else
      var rest := SplitOn(s[1..], sep);
      if s[0] == sep then
        assert Join([""] + rest, [sep]) == [sep] + Join(rest, [sep]) by {
          assert ([""] + rest)[1..] == rest;
        }
        [""] + rest
      else
        var parts := [[s[0]] + rest[0]] + rest[1..];
        assert Join(parts, [sep]) == [s[0]] + Join(rest, [sep]) by {
          assert parts[1..] == rest[1..];
        }
        assert s == [s[0]] + s[1..];
        parts
  }

  /** Python's `s.split()` with no argument, seen from an unfinished word `cur`. */
  function WordsFrom(s: string, cur: string): (ws: seq<string>)
    requires forall c <- cur :: !IsSpace(c)
    ensures forall w <- ws :: w != [] && forall c <- w :: !IsSpace(c) && (c in s || c in cur)
    ensures ws == [] <==> cur == [] && forall c <- s :: IsSpace(c)
    decreases |s|
  {
    if |s| == 0 then
      (if cur == [] then [] else [cur])
    else if IsSpace(s[0]) then
      (if cur == [] then [] else [cur]) + WordsFrom(s[1..], [])
    else
      WordsFrom(s[1..], cur + [s[0]])
  }

  /** `s.split()`: the maximal runs of non-whitespace characters of `s`. */
  function Words(s: string): (ws: seq<string>)
    ensures forall w <- ws :: w != [] && forall c <- w :: !IsSpace(c) && c in s
    ensures ws == [] <==> forall c <- s :: IsSpace(c)
  {
    WordsFrom(s, [])
  }

  predicate StartsWith(s: string, prefix: string) {
    |prefix| <= |s| && s[..|prefix|] == prefix
  }

  predicate EndsWith(s: string, suffix: string) {
    |suffix| <= |s| && s[|s| - |suffix|..] == suffix
  }

  /** A word in the sense of `split()`: non-empty and free of whitespace. */
  predicate IsWord(w: string) {
    w != [] && forall c <- w :: !IsSpace(c)
  }

  // ---------------------------------------------------------------------
  // Splitting on whitespace undoes joining with a space.
  // ---------------------------------------------------------------------

  lemma {:induction false} WordsFromWord(t: string, cur: string)
    requires forall c <- cur :: !IsSpace(c)
    requires forall c <- t :: !IsSpace(c)
    requires cur + t != []
    ensures WordsFrom(t, cur) == [cur + t]
    decreases |t|
  {
    if |t| == 0 {
      assert cur + t == cur;
    } else {
      assert t[0] in t;
      assert cur + [t[0]] + t[1..] == cur + t;
      WordsFromWord(t[1..], cur + [t[0]]);
    }
  }

  /** A single word splits into itself. */
  lemma WordsOfWord(t: string)
    requires IsWord(t)
    ensures Words(t) == [t]
  {
    WordsFromWord(t, []);
    assert [] + t == t;
  }

  /** Any whitespace character separates: the words of `a + [sp] + b` are
      those of `a` then those of `b`. */
  lemma {:induction false} WordsFromSeparator(a: string, sp: char, b: string, cur: string)
    requires IsSpace(sp)
    requires forall c <- cur :: !IsSpace(c)
    ensures WordsFrom(a + [sp] + b, cur) == WordsFrom(a, cur) + Words(b)
    decreases |a|
  {
    var s := a + [sp] + b;
    if |a| == 0 {
      assert s == [sp] + b;
      assert s[1..] == b;
    } else {
      assert s[0] == a[0];
      assert s[1..] == a[1..] + [sp] + b;
      if IsSpace(a[0]) {
        WordsFromSeparator(a[1..], sp, b, []);
      } else {
        WordsFromSeparator(a[1..], sp, b, cur + [a[0]]);
      }
    }
  }

  /** `split()` cuts at every whitespace character. Together with `WordsOfWord`
      and the empty case of `Words` this pins `split()` down on every string. */
  lemma WordsSplitAt(a: string, sp: char, b: string)
    requires IsSpace(sp)
    ensures Words(a + [sp] + b) == Words(a) + Words(b)
  {
    WordsFromSeparator(a, sp, b, []);
  }

  /** Leading whitespace contributes no word. */
  lemma {:induction false} WordsOfStripLeft(s: string)
    ensures Words(StripLeft(s)) == Words(s)
    decreases |s|
  {
    if |s| > 0 && IsSpace(s[0]) {
      WordsOfStripLeft(s[1..]);
    }
  }

  /** The words of every string of `ts`, in order. */
  function WordsOfAll(ts: seq<string>): seq<string> {
    if |ts| == 0 then [] else Words(ts[0]) + WordsOfAll(ts[1..])
  }

  /** Splitting a space-joined list gives the words of its members, in order. */
  lemma {:induction false} WordsOfJoin(ts: seq<string>)
    ensures Words(Join(ts, " ")) == WordsOfAll(ts)
  {
    if |ts| == 0 {
      assert Words("") == [];
    } else if |ts| == 1 {
      assert WordsOfAll(ts[1..]) == [];
    } else {
      WordsSplitAt(ts[0], ' ', Join(ts[1..], " "));
      WordsOfJoin(ts[1..]);
    }
  }

  /** Round trip: `" ".join(ts).split() == ts` when every member is a word. */
  lemma {:induction false} SplitJoinRoundTrip(ts: seq<string>)
    requires forall t <- ts :: IsWord(t)
    ensures Words(Join(ts, " ")) == ts
  {
    WordsOfJoin(ts);
    WordsOfAllWords(ts);
  }

  lemma {:induction false} WordsOfAllWords(ts: seq<string>)
    requires forall t <- ts :: IsWord(t)
    ensures WordsOfAll(ts) == ts
  {
    if |ts| > 0 {
      WordsOfWord(ts[0]);
      WordsOfAllWords(ts[1..]);
    }
  }

  /** Every word of a list's combined split comes from the split of one member. */
  lemma {:induction false} InWordsOfAll(ts: seq<string>, w: string)
    requires w in WordsOfAll(ts)
    ensures exists i :: 0 <= i < |ts| && w in Words(ts[i])
  {
    if w !in Words(ts[0]) {
      InWordsOfAll(ts[1..], w);
      var i :| 0 <= i < |ts[1..]| && w in Words(ts[1..][i]);
      assert w in Words(ts[i + 1]);
    }
  }

  /** Every character of a joined list comes from the separator or from a member. */
  lemma {:induction false} JoinChars(ts: seq<string>, sep: string, c: char)
    requires c in Join(ts, sep)
    ensures c in sep || exists i :: 0 <= i < |ts| && c in ts[i]
  {
    if |ts| >= 2 {
      var rest := Join(ts[1..], sep);
      assert Join(ts, sep) == ts[0] + sep + rest;
      if c !in ts[0] && c !in sep {
        JoinChars(ts[1..], sep, c);
        if c !in sep {
          var i :| 0 <= i < |ts[1..]| && c in ts[1..][i];
          assert c in ts[i + 1];
        }
      }
    }
  }

  /** Removing whitespace from the ends keeps every other character's count. */
  lemma StripKeepsOccurrences(s: string, c: char)
    requires !IsSpace(c)
    ensures Occurrences(Strip(s), c) == Occurrences(s, c)
  {
    var l := StripLeft(s);
    StripLeftKeepsOccurrences(s, c);
    StripRightKeepsOccurrences(l, c);
  }

  /** Every character of `s.lstrip()` comes from `s`. */
  lemma {:induction false} StripLeftKeepsChars(s: string)
    ensures forall c <- StripLeft(s) :: c in s
    decreases |s|
  {
    if |s| > 0 && IsSpace(s[0]) {
      StripLeftKeepsChars(s[1..]);
      assert forall c <- s[1..] :: c in s;
    }
  }

  /** Every character of `s.strip()` comes from `s`. */
  lemma StripKeepsChars(s: string)
    ensures forall c <- Strip(s) :: c in s
  {
    var l := StripLeft(s);
    var r := StripRight(l);
    assert Strip(s) == r;
    forall c <- r ensures c in s {
      var k :| 0 <= k < |r| && r[k] == c;
      assert l[k] == c;
      assert s[|s| - |l| + k] == c;
    }
  }

  lemma {:induction false} StripLeftKeepsOccurrences(s: string, c: char)
    requires !IsSpace(c)
    ensures Occurrences(StripLeft(s), c) == Occurrences(s, c)
    decreases |s|
  {
    if |s| > 0 && IsSpace(s[0]) {
      StripLeftKeepsOccurrences(s[1..], c);
    }
  }

  lemma {:induction false} StripRightKeepsOccurrences(s: string, c: char)
    requires !IsSpace(c)
    ensures Occurrences(StripRight(s), c) == Occurrences(s, c)
    decreases |s|
  {
    if |s| > 0 && IsSpace(s[|s| - 1]) {
      var init := s[..|s| - 1];
      StripRightKeepsOccurrences(init, c);
      OccurrencesAppend(init, [s[|s| - 1]], c);
      assert s == init + [s[|s| - 1]];
    }
  }

  lemma {:induction false} OccurrencesAppend(a: string, b: string, c: char)
    ensures Occurrences(a + b, c) == Occurrences(a, c) + Occurrences(b, c)
  {
    if |a| > 0 {
      assert (a + b)[1..] == a[1..] + b;
      OccurrencesAppend(a[1..], b, c);
    } else {
      assert a + b == b;
    }
  }

  /** Lower-casing keeps the count of every character that has no case. */
  lemma {:induction false} LowerKeepsOccurrences(s: string, c: char)
    requires !IsUpper(c) && !('a' <= c <= 'z')
    ensures Occurrences(Lower(s), c) == Occurrences(s, c)
  {
    if |s| > 0 {
      assert Lower(s)[1..] == Lower(s[1..]);
      LowerKeepsOccurrences(s[1..], c);
    }
  }
}

=== FILE: weights_config.dfy ===
/**
 The second weight table of the project: the legitimacy weights, their
 whole-percent display form, a copy of the level cut-offs and the record
 fields that make up a complete profile.
 */
module WeightsConfig {
  import opened FuzzyConfig

  const LegitimacyWeights: map<Factor, real> := map[
    NameMatch := 0.15,
    WebsiteMatch := 0.15,
    ContactInfo := 0.15,
    Location := 0.15,
    Operational := 0.15,
    Reviews := 0.15,
    Completeness := 0.1,
    EmirateMatch := 0.05
  ]

  const DisplayWeights: map<Factor, int> := map[
    NameMatch := 15,
    WebsiteMatch := 15,
    ContactInfo := 15,
    Location := 15,
    Operational := 15,
    Reviews := 15,
    Completeness := 10,
    EmirateMatch := 5
  ]

  const LegitimacyThresholds := LevelThresholds(0.8, 0.6, 0.4, 0.0)

  /** Record fields whose presence counts towards profile completeness. */
  const RequiredFields: seq<string> := [
    "name",
    "formatted_address",
    "formatted_phone_number",
    "website",
    "current_opening_hours",
    "rating",
    "user_ratings_total"
  ]

  /** `sum(w.values())` of a whole-percent table. */
  function SumPercent(w: map<Factor, int>): int
    requires Complete(w)
  {
    w[NameMatch] + w[WebsiteMatch] + w[ContactInfo] + w[Location]
    + w[Operational] + w[Reviews] + w[Completeness] + w[EmirateMatch]
  }

  /** The legitimacy weights are the base weights, key for key, and so also add up to 1.05. */
  lemma LegitimacyWeightsAreBaseWeights()
    ensures LegitimacyWeights == BaseWeights
    ensures Complete(LegitimacyWeights) && Sum(LegitimacyWeights) == 1.05
  {
    BaseWeightsTotal();
  }

  /** Each display weight is its legitimacy weight in percent; together they make 105. */
  lemma DisplayWeightsArePercentages()
    ensures Complete(DisplayWeights) && Complete(LegitimacyWeights)
    ensures forall f: Factor :: DisplayWeights[f] as real == 100.0 * LegitimacyWeights[f]
    ensures SumPercent(DisplayWeights) == 105
  {
    LegitimacyWeightsAreBaseWeights();
    TablesHaveSameKeys();
    forall f: Factor ensures f in DisplayWeights && DisplayWeights[f] as real == 100.0 * LegitimacyWeights[f] {
      match f
      case NameMatch =>
      case WebsiteMatch =>
      case ContactInfo =>
      case Location =>
      case Operational =>
      case Reviews =>
      case Completeness =>
      case EmirateMatch =>
    }
  }

  /** Both copies of the level cut-offs agree. */
  lemma ThresholdTablesAgree()
    ensures LegitimacyThresholds == FuzzyConfig.LegitimacyThresholds
  {
  }

  /** Seven required fields, no two alike. */
  lemma RequiredFieldsDistinct()
    ensures |RequiredFields| == 7
    ensures forall i, j :: 0 <= i < j < |RequiredFields| ==> RequiredFields[i] != RequiredFields[j]
  {
  }
}
